=== FILE: README.md ===
# PET protocol physics and k-factor store, in Dafny

This project models the computational core of a PET acquisition-protocol optimiser built for a
Siemens Vision 450 scanner. It covers two parts.

- **The physics model** (`PETPhysicsModel`):
  - resolving a tracer label to FDG or PSMA;
  - the scanner constants and the reconstruction-profile gains;
  - decay-corrected effective activity;
  - the weight-keyed pediatric tables (age group, dose factor, SNR target, scan-time ceiling);
  - lean body mass and the BMI multiplier;
  - the count model: NEC, SNR from NEC, and the site calibration constant k;
  - the three protocol solvers (standard, low dose, fast). Each one turns a dwell time per bed
    position into a bed velocity. The velocity is clamped to [0.5, 50] mm/s and rounded to one
    decimal. The dwell is then re-derived from the rounded velocity, and SNR and COV are
    predicted for it.
- **The k-factor store** (`KFactorStore`): a map from `<tracer>_<profile>` to the append-only
  history of measured k values, summarised by its median and its 25th and 75th percentiles.

Modules follow the structure of the program:

- `Device`: the tracer key, constants and gains.
- `Pediatrics`: the pediatric tables.
- `BodyCorrections`: LBM and the BMI multiplier.
- `SnrModel`: activity, NEC, SNR and k.
- `ProtocolSolvers`: the three solvers and what every solver's result satisfies.
- `OrderStatistics`: sort, median and quartiles.
- `KFactorStore`: the store.
- Supporting modules:
  - `RealMath`: min, max and clamp; Python's one-decimal `round`, as round-half-to-even on
    exact reals; the transcendental functions.
  - `AsciiText`: ASCII casing and substring search.
  - `Wrappers`: `Option`.

The transcendental functions (`exp`, `ln`, `sqrt` and the real power) cannot be computed in
Dafny's real arithmetic. They are passed in as a `Transcendentals` record. Its `Valid()`
predicate lists the laws the proofs use:

- `exp(0) = 1`, `exp` is positive, and `exp` is monotone;
- `ln(1) = 0`, and `ln` is increasing on the positives;
- `sqrt(x) ≥ 0` and `sqrt(x)² = x` for `x ≥ 0`;
- `pow(1, e) = 1`, and `pow(b1, e) ≤ pow(b2, e)` for `0 < b1 ≤ b2` and `e ≥ 0`.

Every property below holds for any functions obeying those laws.

Some behaviour of the program is stated as proved facts rather than "fixed":

- **Unreachable LBM tiers.** A pediatric patient with no age group weighs below 0.5 kg. So the
  0.80 and 0.75 weight tiers of the pediatric LBM fallback can never be reached
  (`BodyCorrections.Lbm`).
- **Case-sensitive SNR target.** The pediatric SNR-target table is looked up by the raw tracer
  string, so "psma" gets the FDG base (`Pediatrics.PediatricSnrTargetIsCaseSensitive`).
- **Fast dwell past half the ceiling.** In the fast solver, rounding the velocity down can push
  the reported dwell past half the pediatric ceiling (`ProtocolSolvers.FastChildCanExceedHalfCeiling`).
- **Fast dwell below the table.** A pediatric weight below 0.5 kg is in no group, so its dose
  factor is 1.0 and the fast reduction factor is 2.5: the fast dwell is lengthened, not shortened,
  before the half-ceiling cap (`ProtocolSolvers.FastReductionBelowTableLengthens`).
- **Standard flag and the BMI multiplier.** In the standard solver, when none of the floors
  applies (k ≥ 1e-9, activity × 9100 ≥ 1e-6 and the NEC at the dwell ≥ 1e-9), the squared SNR at
  the unrounded dwell is the squared target times the BMI multiplier. So with a multiplier above
  1, the convergence flag can be false even when nothing was clamped
  (`ProtocolSolvers.StandardInvertsSnrModel`).

## Model

| member | source | states |
|---|---|---|
| Device.TracerKey | physics_module.py:68-69 | the result is PSMA exactly when the upper-cased label contains "PSMA" as a substring, and FDG exactly when it does not |
| Device.TracerKeyIdempotent | physics_module.py:68-69 | resolving a tracer's own key gives that tracer back, so resolving twice equals resolving once |
| Device.TracerKeyResolvesPsmaLabels | physics_module.py:68-69 | "F-18 PSMA-1007" resolves to PSMA, and so does its lower-case spelling |
| Device.TracerKeyDefaultsToFdg | physics_module.py:68-69 | a label without "PSMA" ("FDG", "unknown") resolves to FDG |
| Device.SystemSensitivity | physics_module.py:71-74 | the sensitivity is 9100 cps/MBq (9.1 kcps/MBq) for every tracer label |
| Device.ReconGain | physics_module.py:76-81 | a custom gain above zero wins; otherwise the named profile's gain, or 1.6 for an unknown profile; the result is always positive and, without a custom gain, one of 1.0, 1.25 and 1.6 |
| Pediatrics.FirstInRange | physics_module.py:91-96 | the index found is the first whose inclusive range holds the weight; none is found only when no range holds it |
| Pediatrics.AgeGroupOf | physics_module.py:91-96 | no group exactly when the weight is outside [0.5, 100]; the group found holds the weight, and no earlier group in table order does |
| Pediatrics.AgeGroupBoundaries | physics_module.py:91-96 | a weight on a shared border (5, 15, 25, 50) belongs to the lighter group; 0.5 and 100 are inside the table |
| Pediatrics.IsPediatric | physics_module.py:98-100 | a pediatric weight of at least 0.5 kg is in one of the four lighter groups, one below 0.5 kg is in none, and an adult weight in the table is a child or an adolescent |
| Pediatrics.PediatricGateIsNotTheTable | physics_module.py:98-100 | the 35 kg gate is strict and independent of the table: 35 kg is adult but in the child range, and 0.4 kg is pediatric but in no range |
| Pediatrics.PediatricGroupIsNotAdolescent | physics_module.py:98-100 | a pediatric weight that is in a range is never in the adolescent range |
| Pediatrics.PediatricDoseFactor | physics_module.py:102-107 | the group's dose factor, or 1.0 with no group; always in (0, 1], and at most 0.15 for a pediatric weight in a range |
| Pediatrics.PediatricSnrTarget | physics_module.py:109-114 | the target is always in [5, 12], and is 12 when the weight is in no range |
| Pediatrics.PediatricSnrTargetValues | physics_module.py:109-114 | base × (0.8 + 0.4 × dose factor / 0.15), clamped: 128/15 for an FDG toddler and a PSMA neonate, 9.6 for an FDG child, and the 12 cap for a PSMA child and an adolescent |
| Pediatrics.PediatricSnrTargetIsCaseSensitive | physics_module.py:109-111 | "psma" gets the same target as "FDG", and at 3 kg "PSMA" and "psma" get different targets |
| Pediatrics.PediatricScanTimeLimit | physics_module.py:116-121 | the group's ceiling, or 180 s with no group; always in [30, 240], and at most 180 for a pediatric weight |
| BodyCorrections.IsMaleSex | physics_module.py:139-140 | a missing or empty category selects the male formula; any other category selects it exactly when its lower-case spelling is "male", "masculino" or "hombre" |
| BodyCorrections.IsMaleSexIgnoresCase | physics_module.py:139-140 | a category and its upper-cased spelling select the same formula |
| BodyCorrections.IsMaleSexCases | physics_module.py:139-140 | a missing or empty category and "Hombre" select the male formula; "female" and "pediatric" do not |
| BodyCorrections.Lbm | physics_module.py:123-144 | pediatric: the weight times its group's factor, or 0.85 × weight with no group, so between 0.70 and 0.85 of the weight; adult: the sex-selected formula, floored at 30 kg |
| BodyCorrections.BmiMultiplier | physics_module.py:146-151 | exactly 1 when the capped BMI is at most the reference, otherwise (capped / reference) to the tracer's exponent; never below 1 |
| BodyCorrections.BmiMultiplierMonotone | physics_module.py:146-151 | a larger BMI never gives a smaller multiplier |
| BodyCorrections.BmiMultiplierAtDefaults | physics_module.py:146-151 | with the default reference 22 and cap 40: a BMI up to 22 (22 itself included) gives exactly 1, and every BMI from 40 up gives (40 / 22) to the tracer's exponent |
| BodyCorrections.BmiMultiplierConstantAboveCap | physics_module.py:150-151 | every BMI at or above the cap gives the multiplier of the cap itself |
| SnrModel.ElapsedMinutes | physics_module.py:87 | the elapsed minutes are never negative: exactly zero when the scan does not start after the injection, and the exact difference in minutes when it does |
| SnrModel.ElapsedMinutesMonotone | physics_module.py:87 | a later scan start never counts fewer elapsed minutes |
| SnrModel.PreDecayActivity | physics_module.py:88 | the activity before decay is never negative; it is either zero or injected minus residual, and never below that difference |
| SnrModel.DecayConstant | physics_module.py:85-86 | the decay constant is positive |
| SnrModel.Decayed | physics_module.py:89 | decaying an activity leaves between zero and the activity, and all of it after zero decay |
| SnrModel.DecayedAntitone | physics_module.py:89 | a longer decay never leaves more activity |
| SnrModel.EffectiveActivity | physics_module.py:83-89 | the effective activity lies between zero and the pre-decay activity, and equals it when the scan does not start after the injection |
| SnrModel.EffectiveActivityDecreasesWithTime | physics_module.py:83-89 | a later scan start never sees more activity |
| SnrModel.Nec | physics_module.py:155-157 | NEC is activity × dwell × 9100 whatever the tracer label, and is never negative for a non-negative activity and dwell |
| SnrModel.SnrFromNec | physics_module.py:159-160 | the squared SNR is the NEC, floored at 1e-9, times the squared gain; the SNR is positive exactly when the gain is, and zero exactly when the gain is |
| SnrModel.PredictedSnr | physics_module.py:195-196 | the squared prediction is k² × floored NEC × gain², and it is positive for positive k and gain |
| SnrModel.FlooredQuotient | physics_module.py:173-175 | a quotient floored at 1e-9 is at least 1e-9 and scales back to the target unless floored; with a positive divisor it is floored exactly when the target is below 1e-9 × divisor |
| SnrModel.CalibrateK | physics_module.py:162-175 | k is at least 1e-9; unless it was floored, the SNR model with this k reproduces the site's reference SNR for the reference acquisition; with a positive gain, it reproduces that SNR whenever the SNR is at least what k = 1e-9 predicts, and is 1e-9 otherwise (in particular for a non-positive reference SNR) |
| ProtocolSolvers.BedVelocity | physics_module.py:190-193 | the velocity lies in [0.5, 50], is a multiple of 0.1, and is within 0.05 of the clamped field-of-view-over-dwell velocity |
| ProtocolSolvers.BedVelocityAntitone | physics_module.py:190-192 | a longer dwell never gives a faster bed |
| ProtocolSolvers.SolutionAt | physics_module.py:193-199 | at a positive velocity the reported dwell × velocity is the field of view, the scan minutes × velocity × 60 is the range, and COV is defined exactly for a positive SNR and is then its reciprocal |
| ProtocolSolvers.SolutionForBedTime | physics_module.py:190-199 | the reported velocity is the rounded clamped velocity for the dwell; dwell × velocity is the field of view; the scan time covers the range at that velocity; the SNR is predicted for the reported dwell; COV is its reciprocal, and defined exactly when SNR > 0 |
| ProtocolSolvers.RequiredNec | physics_module.py:181 | the required NEC is non-negative, and its product with the squared (floored k × gain) is the squared target, so its square root times the floored k × gain reproduces the target's absolute value |
| ProtocolSolvers.RequiredBedTime | physics_module.py:181-183 | the floored count rate (activity × 9100) times the dwell is the required NEC times the BMI multiplier; the dwell is non-negative for a non-negative multiplier |
| ProtocolSolvers.CappedBedTime | physics_module.py:181-188 | the dwell is the required dwell, or the pediatric ceiling when that is smaller, and never exceeds either |
| ProtocolSolvers.StandardInvertsSnrModel | physics_module.py:181-196 | when none of the floors applies (k ≥ 1e-9, activity × 9100 ≥ 1e-6, NEC at the dwell ≥ 1e-9), at the uncapped, unrounded dwell the squared predicted SNR is the squared target times the BMI multiplier |
| ProtocolSolvers.SolveStandard | physics_module.py:179-199 | the result reports consistently for the effective activity; its velocity comes from the capped required dwell; it has converged exactly when the SNR is within 0.3 of the target; a pediatric patient with a known weight is never slower than the ceiling's velocity |
| ProtocolSolvers.LowDoseActivity | physics_module.py:204-208 | dose/kg × weight for an adult or for a weight in no range; otherwise that times the group's dose factor; for a non-negative dose it lies between zero and the adult activity |
| ProtocolSolvers.PediatricLowDoseNeverExceedsAdult | physics_module.py:204-208 | for a non-negative dose, the pediatric low-dose activity is at most the adult one, and equal to it when the weight is in no range |
| ProtocolSolvers.SolveLowDose | physics_module.py:201-228 | the activity is dose/kg × weight, times the dose factor for a pediatric patient; the result reports consistently for that activity; it has converged exactly when the velocity is above 0.5 + 1e-6, which on the 0.1 grid means exactly when it is not 0.5 |
| ProtocolSolvers.FastReduction | physics_module.py:236 | 0.54 for a neonate, 0.6 for an infant, 0.7 for a toddler, 0.8 for a child, 2.0 for an adolescent, and 2.5 for a weight in no range |
| ProtocolSolvers.FastReductionShortens | physics_module.py:235-237 | for a pediatric weight in a range, the fast reduction factor lies in (0.5, 0.8] |
| ProtocolSolvers.FastReductionBelowTableLengthens | physics_module.py:234-237 | a 0.4 kg patient is pediatric, yet the reduction factor is 2.5 |
| ProtocolSolvers.FastBedTime | physics_module.py:232-239 | without a pediatric weight, the fast dwell is the reference × the BMI multiplier; with one, it is that times the reduction, capped at half the scan-time ceiling |
| ProtocolSolvers.SolveFast | physics_module.py:230-250 | the result reports consistently; its velocity comes from the fast dwell, and is never below the velocity of half the ceiling for a pediatric patient |
| ProtocolSolvers.FastToddlerWithinHalfCeiling | physics_module.py:232-244 | at 20 kg the fast dwell is min(0.7 × reference × multiplier, 60), and the reported dwell stays within 60 s |
| ProtocolSolvers.FastChildCanExceedHalfCeiling | physics_module.py:232-244 | at 30 kg with a 120 s reference the capped dwell is 90 s, yet the reported dwell from the rounded 2.9 mm/s velocity exceeds 90 s |
| OrderStatistics.Insert | data_persistence.py:37-38 | inserting into a sorted sequence keeps it sorted and adds exactly the one element |
| OrderStatistics.SortAscending | data_persistence.py:37-38 | the sort is an ascending permutation of its input |
| OrderStatistics.SortedUnique | data_persistence.py:37-38 | two sorted sequences with the same elements are equal |
| OrderStatistics.SortIgnoresOrder | data_persistence.py:37-38 | inputs with the same elements sort to the same sequence |
| OrderStatistics.QuartileRank | data_persistence.py:38 | the lower rank of the q-th quartile is ⌊q(n − 1)/4⌋, at most n − 1, and below n − 1 when the position is not exact |
| OrderStatistics.UpperRank | data_persistence.py:38 | the upper rank is the lower rank for an exact position and one more otherwise, never past n − 1 |
| OrderStatistics.Quartile | data_persistence.py:38 | on an exact rank position q(n − 1)/4 the quartile is the element there; otherwise, on a sorted sample, it lies between the two neighbouring ranks |
| OrderStatistics.Median | data_persistence.py:38 | for an odd count the middle element; on a sorted sample it lies between the two middle elements |
| OrderStatistics.MedianIsSecondQuartile | data_persistence.py:38 | the median (the middle element, or the mean of the two middle ones) equals the interpolated 50th percentile |
| OrderStatistics.QuartileEnds | data_persistence.py:38 | the 0th and 100th percentiles are the first and last elements of the sorted sample |
| OrderStatistics.QuartileMonotone | data_persistence.py:38 | on a sorted sample, a higher percentile is never smaller |
| KFactorStore.StoreKey | data_persistence.py:25 | the key is the tracer, an underscore, and the reconstruction profile, in that order |
| KFactorStore.StoreKeyInjective | data_persistence.py:25 | for tracer names without an underscore, two pairs share a key only when they are the same pair |
| KFactorStore.StoreKeyCanCollide | data_persistence.py:25 | ("F_1", "X") and ("F", "1_X") share the key "F_1_X", so their histories are merged |
| KFactorStore.History | data_persistence.py:26 | the history of a stored key is its list, and an absent key has the empty history |
| KFactorStore.AddKMeasurement | data_persistence.py:24-28 | the key set gains the pair's key; that key's history grows by one, keeps its earlier values and ends in k; every other key keeps its history |
| KFactorStore.SummaryOfSorted | data_persistence.py:37-38 | for a sorted sample: the count is its length, first ≤ p25 ≤ median ≤ p75 ≤ last, the median lies between the two middle elements, and p25 and p75 lie between the elements at their neighbouring ranks |
| KFactorStore.Summarize | data_persistence.py:35-38 | no summary exactly for an empty history; the count is the history length, p25 ≤ median ≤ p75, and the quartiles lie within the stored values; in the sorted history the median lies between the two middle elements, and p25 and p75 between the elements at ranks ⌊q(n − 1)/4⌋ and ⌈q(n − 1)/4⌉ |
| KFactorStore.SummarizeSingleton | data_persistence.py:35-38 | a single value summarises to itself three times with count 1 |
| KFactorStore.SummarizeIgnoresOrder | data_persistence.py:37-38 | the summary depends only on which values are stored, not on their order |
| KFactorStore.SummarizeK | data_persistence.py:32-38 | no summary exactly when the key is absent or its history is empty; otherwise the count is the history length |
| KFactorStore.AddThenSummarize | data_persistence.py:24-38 | after an append the key has a summary counting one more value; appending to an empty history gives (k, k, k, 1) |
| KFactorStore.AddKeepsOtherSummaries | data_persistence.py:24-38 | an append leaves the summary of every other key unchanged |
| KFactorStore.LoadStore | data_persistence.py:9-16 | a load returns the saved map, or an empty map when the file is missing or unreadable |
| KFactorStore.SaveStore | data_persistence.py:18-22 | after a complete write the next load returns the saved map; when the file cannot be opened the backing is unchanged; when the write fails after truncating the file, the next load returns an empty map |
| KFactorStore.InterruptedSaveLosesHistory | data_persistence.py:9-22 | after a save interrupted once the file is truncated, no key has a summary any more |
| KFactorStore.SaveOfLoadIsNoOp | data_persistence.py:9-22 | saving what was loaded changes nothing a later load can see, unless the write is interrupted after truncating the file |
| KFactorStore.AddKMeasurementAndSave | data_persistence.py:24-30 | the returned map is the appended one; after a complete write the next load returns exactly that map; when the file cannot be opened the backing is unchanged; after an interrupted write the next load returns an empty map |
| KFactorStore.GetSiteKSummary | data_persistence.py:40-42 | no summary when the file is missing or unreadable; otherwise the summary of the saved map |
| AsciiText.HasInfixCorrect | physics_module.py:69 | the recursive substring search agrees with "p occurs at some position of s", in both directions |
| RealMath.RoundTenth | physics_module.py:192 | the rounded value is a multiple of 0.1, within 0.05 of the input, and equal to the input when the input is already a multiple of 0.1 |
| RealMath.RoundTenthMonotone | physics_module.py:192 | rounding to one decimal never reverses the order of two values |

## Left out

- **File I/O.** The JSON file of the store is abstracted to `Backing`: missing, unreadable, or a
  saved map. How a write ends is a parameter: complete; the file could not be opened; or the
  file was truncated and then not completely written. Serialisation and paths are not modelled.
- **Concurrency and mutation.** The store operations are pure functions on immutable maps. The
  program mutates the dict it is given and returns it; the model returns the new map.
- **Floating point.** All arithmetic is exact real arithmetic. NaN becomes `None` (the COV of a
  non-positive SNR); infinities, float rounding of intermediate results, and binary ties in
  `round(v, 1)` are not modelled. `round` is modelled as round-half-to-even on exact tenths.
- **Transcendental functions.** `np.exp`, `np.log`, `np.sqrt` and `**` with a fractional
  exponent are passed in as functions obeying stated laws, not computed. A numeric end-to-end
  result (such as the velocity for one particular patient) whose value depends on them cannot
  be proved. Only the two fast-protocol examples are proved, because their dwell does not
  depend on a transcendental value.
- **Unicode.** Upper- and lower-casing is ASCII-only. Python's full Unicode casing is not
  modelled.
- **Time.** Timestamps are integer seconds rather than `datetime` values.
- **Unused parameters.** The parameters that have no effect are dropped:
  - `weight_kg` and `height_cm` of `calibrate_k_from_reference`;
  - `height_cm` of all three solvers.
- **Default arguments.** The Python defaults are kept as Dafny parameter defaults: `tracer`
  "FDG", `residual_mbq` 0, `recon_gain` 1, `bmi_ref` 22 and `bmi_cap` 40, and `is_pediatric`
  false and `weight_kg` None in the solvers. The `gender="male"` default of `calculate_lbm` is
  the `None` category of `BodyCorrections.Lbm`.
- **Unused tables.** The default SNR tables at physics_module.py:14-15 are used only by the
  user interface. ui_components.py is not part of this model.
- **Unreachable defaults.** The `.get` defaults are omitted, because no key can miss:
  - 9.1 in `get_system_sensitivity`;
  - 0.15 and 180.0 for a known group;
  - 0.70 in `calculate_lbm`.
- **Zero gain.** `ProtocolSolvers.SolveStandard`, `ProtocolSolvers.SolveLowDose` and
  `SnrModel.CalibrateK` require a non-zero reconstruction gain. With a zero gain, solve_standard
  and solve_lowdose raise `ZeroDivisionError` (physics_module.py:181 and :210), and the
  calibration divides by zero (:173). solve_fast never divides by the gain, and
  `ProtocolSolvers.SolveFast` has no such requirement. `Device.ReconGain` never returns zero.
- **BMI reference.** `BodyCorrections.BmiMultiplier` requires a positive BMI reference. With a
  reference of zero or below, the program divides by zero or takes a fractional power of a
  negative number.
- **Adult height.** `BodyCorrections.Lbm` requires a non-zero height for an adult patient. The
  program divides by it.
- `BodyCorrections.BmiMultiplier`: the converse, that the multiplier is exactly 1 only when the
  capped BMI is at most the reference, is not stated. It would need `pow(b, e) > 1` for
  `b > 1` and `e > 0`, which is not among the laws assumed of `pow`.
- `SnrModel.CalibrateK`: with a negative gain only the disjunction is stated (floored, or the
  reference SNR reproduced), not which of the two holds.

=== FILE: ascii_text.dfy ===
/** ASCII case mapping and substring search, the string operations tracer resolution and
    sex-category matching use. */
module AsciiText {

  function UpperChar(c: char): char {
    if 'a' <= c <= 'z' then (c as int - 32) as char else c
  }

  function LowerChar(c: char): char {
    if 'A' <= c <= 'Z' then (c as int + 32) as char else c
  }

  /** `str.upper()`, restricted to ASCII letters. */
  function Upper(s: string): string {
    seq(|s|, i requires 0 <= i < |s| => UpperChar(s[i]))
  }

  /** `str.lower()`, restricted to ASCII letters. */
  function Lower(s: string): string {
    seq(|s|, i requires 0 <= i < |s| => LowerChar(s[i]))
  }

  /** Lower-casing forgets a prior upper-casing. */
  lemma LowerOfUpper(s: string)
    ensures |Upper(s)| == |s|
    ensures Lower(Upper(s)) == Lower(s)
  {
    forall i | 0 <= i < |s| ensures Lower(Upper(s))[i] == Lower(s)[i] {
      assert LowerChar(UpperChar(s[i])) == LowerChar(s[i]);
    }
  }

  /** `p` occurs in `s` at some position: the meaning of Python's `p in s`. */
  ghost predicate IsInfix(p: string, s: string) {
    exists i :: 0 <= i <= |s| && p <= s[i..]
  }

  /** Substring search, trying each start position of `s` in turn. */
  function HasInfix(s: string, p: string): bool
    decreases |s|
  {
    p <= s || (|s| > 0 && HasInfix(s[1..], p))
  }

  /** The search finds `p` exactly when it occurs somewhere in `s`. */
  lemma {:induction false} HasInfixCorrect(s: string, p: string)
    ensures HasInfix(s, p) <==> IsInfix(p, s)
    decreases |s|
  {
    if p <= s {
      assert p <= s[0..];
    } else if |s| == 0 {
      assert !IsInfix(p, s) by {
        forall i | 0 <= i <= |s| ensures !(p <= s[i..]) {
          assert s[i..] == s;
        }
      }
    } else {
      HasInfixCorrect(s[1..], p);
      if IsInfix(p, s) {
        var i :| 0 <= i <= |s| && p <= s[i..];
        assert i != 0;
        assert s[1..][i - 1..] == s[i..];
        assert IsInfix(p, s[1..]);
      }
      if IsInfix(p, s[1..]) {
        var j :| 0 <= j <= |s[1..]| && p <= s[1..][j..];
        assert s[1..][j..] == s[j + 1..];
        assert IsInfix(p, s);
      }
    }
  }
}

=== FILE: body_corrections.dfy ===
/**
 Body-composition corrections of the PET physics model: lean body mass (pediatric table or
 the adult sex-branched Boer-style formula) and the tracer-dependent BMI multiplier.
 */
module BodyCorrections {
  import opened Wrappers
  import opened AsciiText
  import opened RealMath
  import opened Device
  import opened Pediatrics

  /** Lower bound on an adult lean body mass, in kg. */
  const MinAdultLbm: real := 30.0

  /** A missing or empty sex category reads as "male"; otherwise the lower-cased category must
      be one of the male spellings the LBM formula recognises, in English or Spanish. */
  function IsMaleSex(sex: Option<string>): (b: bool)
    ensures sex.None? || sex == Some("") ==> b
    ensures sex.Some? && sex.value != "" ==> (b <==> Lower(sex.value) in MaleSpellings)
  {
    var category := if sex.None? || sex.value == "" then "male" else sex.value;
    assert Lower("male") == "male";
    Lower(category) in MaleSpellings
  }

  /** The male categories, lower-cased. */
  const MaleSpellings: seq<string> := ["male", "masculino", "hombre"]

  /** Matching ignores case: a category and its upper-cased spelling select the same formula. */
  lemma IsMaleSexIgnoresCase(category: string)
    ensures IsMaleSex(Some(Upper(category))) == IsMaleSex(Some(category))
  {
    LowerOfUpper(category);
  }

  /** Which categories select the male formula; "pediatric" does not. */
  lemma IsMaleSexCases()
    ensures IsMaleSex(None) && IsMaleSex(Some("")) && IsMaleSex(Some("Hombre"))
    ensures !IsMaleSex(Some("female")) && !IsMaleSex(Some("pediatric"))
  {
    assert Lower("Hombre") == "hombre";
    assert Lower("male") == "male";
    assert Lower("female") == "female";
    assert Lower("pediatric") == "pediatric";
  }

  function BoerMale(w: real, h: real): real
    requires h != 0.0
  {
    1.10 * w - 128.0 * (w / h) * (w / h)
  }

  function BoerOther(w: real, h: real): real
    requires h != 0.0
  {
    1.07 * w - 148.0 * (w / h) * (w / h)
  }

  /** Lean body mass in kg. Pediatric: the weight times its group's factor; with no group (which
      for a pediatric weight means below 0.5 kg) the 0.85 tier. Adult: the sex-selected formula,
      never below 30 kg. The height is only divided by on the adult branch. */
  function Lbm(w: real, h: real, sex: Option<string>): (r: real)
    requires IsPediatric(w) || h != 0.0
    ensures IsPediatric(w) && AgeGroupOf(w).Some? ==> r == w * LbmFactor(AgeGroupOf(w).value)
    ensures IsPediatric(w) && AgeGroupOf(w).None? ==> r == 0.85 * w
    ensures IsPediatric(w) && w > 0.0 ==> 0.70 * w <= r <= 0.85 * w
    ensures !IsPediatric(w) ==> r >= MinAdultLbm
    ensures !IsPediatric(w) && IsMaleSex(sex) ==> r == Max(BoerMale(w, h), MinAdultLbm)
    ensures !IsPediatric(w) && !IsMaleSex(sex) ==> r == Max(BoerOther(w, h), MinAdultLbm)
  {
    if IsPediatric(w) then
      match AgeGroupOf(w)
      case Some(g) => w * LbmFactor(g)
      case None =>
        if w < 10.0 then w * 0.85
        else if w < 30.0 then w * 0.80
        else w * 0.75
    else
      var lbm := if IsMaleSex(sex) then BoerMale(w, h) else BoerOther(w, h);
      Max(lbm, MinAdultLbm)
  }

  /** Default reference BMI: at or below it no correction is applied. */
  const DefaultBmiRef: real := 22.0

  /** Default cap: a BMI above it is corrected as if it were the cap. */
  const DefaultBmiCap: real := 40.0

  /** The BMI exponent: 0.6 for FDG, 0.4 for PSMA. */
  function BmiExponent(t: Tracer): real {
    match t
    case FDG => 0.6
    case PSMA => 0.4
  }

  /** The BMI capped at `bmiCap`. */
  function EffectiveBmi(bmi: real, bmiCap: real): real {
    Min(bmi, bmiCap)
  }

  /** 1.0 when the capped BMI is at most the reference, else (capped / reference) raised to the
      tracer's exponent; never below 1.0. */
  function BmiMultiplier(m: Transcendentals, bmi: real, tracer: string := "FDG",
                         bmiRef: real := DefaultBmiRef, bmiCap: real := DefaultBmiCap): (r: real)
    requires m.Valid() && bmiRef > 0.0
    ensures r >= 1.0
    ensures EffectiveBmi(bmi, bmiCap) <= bmiRef ==> r == 1.0
    ensures EffectiveBmi(bmi, bmiCap) > bmiRef ==>
      r == m.pow(EffectiveBmi(bmi, bmiCap) / bmiRef, BmiExponent(TracerKey(tracer)))
  {
    var exponent := BmiExponent(TracerKey(tracer));
    var capped := EffectiveBmi(bmi, bmiCap);
    if capped <= bmiRef then 1.0
    else
      PowAtLeastOne(m, capped / bmiRef, exponent);
      m.pow(capped / bmiRef, exponent)
  }

  /** A larger BMI never gives a smaller multiplier. */
  lemma BmiMultiplierMonotone(m: Transcendentals, bmi1: real, bmi2: real, tracer: string, bmiRef: real, bmiCap: real)
    requires m.Valid() && bmiRef > 0.0 && bmi1 <= bmi2
    ensures BmiMultiplier(m, bmi1, tracer, bmiRef, bmiCap) <= BmiMultiplier(m, bmi2, tracer, bmiRef, bmiCap)
  {
    var c1, c2 := EffectiveBmi(bmi1, bmiCap), EffectiveBmi(bmi2, bmiCap);
    if c1 > bmiRef {
      DivideMonotone(c1, c2, bmiRef);
      DivideMonotone(0.0, c1, bmiRef);
    }
  }

  /** At or above the cap the multiplier no longer depends on the BMI. */
  lemma BmiMultiplierConstantAboveCap(m: Transcendentals, bmi: real, tracer: string, bmiRef: real, bmiCap: real)
    requires m.Valid() && bmiRef > 0.0 && bmi >= bmiCap
    ensures BmiMultiplier(m, bmi, tracer, bmiRef, bmiCap) == BmiMultiplier(m, bmiCap, tracer, bmiRef, bmiCap)
  {
  }

  /** With the default reference and cap: a BMI up to 22 (the reference itself included) is not
      corrected, and every BMI from 40 up gets (40 / 22) to the tracer's exponent. */
  lemma BmiMultiplierAtDefaults(m: Transcendentals, bmi: real, tracer: string)
    requires m.Valid()
    ensures BmiMultiplier(m, DefaultBmiRef, tracer, DefaultBmiRef, DefaultBmiCap) == 1.0
    ensures bmi <= DefaultBmiRef ==> BmiMultiplier(m, bmi, tracer, DefaultBmiRef, DefaultBmiCap) == 1.0
    ensures bmi >= DefaultBmiCap ==>
      BmiMultiplier(m, bmi, tracer, DefaultBmiRef, DefaultBmiCap) == m.pow(40.0 / 22.0, BmiExponent(TracerKey(tracer)))
  {
  }
}

=== FILE: device.dfy ===
/**
 Scanner and tracer constants of the PET physics model: tracer resolution from a free-text
 label, half-lives, system sensitivity and the reconstruction-profile gains.
 */
module Device {
  import opened Wrappers
  import opened AsciiText

  /** Axial field of view of the scanner in millimetres: the length one bed position covers. */
  const AxialFovMm: real := 263.0

  datatype Tracer = FDG | PSMA {

    /** The table key the program uses for the tracer. */
    function Name(): string {
      match this
      case FDG => "FDG"
      case PSMA => "PSMA"
    }
  }

  /** Resolves a free-text label: PSMA when the upper-cased label contains "PSMA", else FDG. */
  function TracerKey(tracerLabel: string): (t: Tracer)
    ensures t == PSMA <==> IsInfix("PSMA", Upper(tracerLabel))
    ensures t == FDG <==> !IsInfix("PSMA", Upper(tracerLabel))
  {
    HasInfixCorrect(Upper(tracerLabel), "PSMA");
    if HasInfix(Upper(tracerLabel), "PSMA") then PSMA else FDG
  }

  /** Resolving a tracer's own key gives the tracer back, so resolution is idempotent. */
  lemma TracerKeyIdempotent(t: Tracer)
    ensures TracerKey(t.Name()) == t
    ensures TracerKey(TracerKey(t.Name()).Name()) == TracerKey(t.Name())
  {
    match t
    case FDG =>
      assert Upper("FDG") == "FDG";
      assert !HasInfix("FDG", "PSMA");
    case PSMA =>
      assert Upper("PSMA") == "PSMA";
      assert HasInfix("PSMA", "PSMA");
  }

  /** The PSMA label the input form offers resolves to PSMA, and so does its lower-case spelling. */
  lemma TracerKeyResolvesPsmaLabels()
    ensures TracerKey("F-18 PSMA-1007") == PSMA
    ensures TracerKey("f-18 psma-1007") == PSMA
  {
    var u := Upper("f-18 psma-1007");
    assert u == "F-18 PSMA-1007";
    assert "PSMA" <= u[5..];
    assert IsInfix("PSMA", u);
    assert Upper("F-18 PSMA-1007") == u;
  }

  /** A label without "PSMA" in it resolves to FDG. */
  lemma TracerKeyDefaultsToFdg()
    ensures TracerKey("FDG") == FDG
    ensures TracerKey("unknown") == FDG
  {
    TracerKeyIdempotent(FDG);
    var w := Upper("unknown");
    assert w == "UNKNOWN";
    forall i | 0 <= i <= |w| ensures !("PSMA" <= w[i..]) {
      if i < |w| {
        assert w[i..][0] == w[i] != 'P';
      }
    }
  }

  /** Physical half-life in minutes; both tracers are labelled with F-18. */
  function HalfLifeMin(t: Tracer): real {
    match t
    case FDG => 109.77
    case PSMA => 109.77
  }

  /** Literature system sensitivity in kcps/MBq. */
  function SensitivityKcps(t: Tracer): real {
    match t
    case FDG => 9.1
    case PSMA => 9.1
  }

  /** System sensitivity in cps/MBq for a tracer label. */
  function SystemSensitivity(tracerLabel: string): (r: real)
    ensures r == 9100.0
  {
    SensitivityKcps(TracerKey(tracerLabel)) * 1000.0
  }

  /** The gain of each named reconstruction profile. */
  function ProfileGain(profile: string): Option<real> {
    if profile == "EARL" then Some(1.0)
    else if profile == "OSEM_TOF" then Some(1.25)
    else if profile == "HD_PET" then Some(1.6)
    else None
  }

  /** The custom gain when one above zero is given, otherwise the profile's gain, with 1.6 for
      an unknown profile. Always positive. */
  function ReconGain(profile: string, custom: Option<real>): (r: real)
    ensures r > 0.0
    ensures custom.Some? && custom.value > 0.0 ==> r == custom.value
    ensures !(custom.Some? && custom.value > 0.0) && ProfileGain(profile).Some? ==> r == ProfileGain(profile).value
    ensures !(custom.Some? && custom.value > 0.0) && ProfileGain(profile).None? ==> r == 1.6
    ensures !(custom.Some? && custom.value > 0.0) ==> r == 1.0 || r == 1.25 || r == 1.6
  {
    if custom.Some? && custom.value > 0.0 then custom.value
    else ProfileGain(profile).GetOr(1.6)
  }
}

=== FILE: k_factor_store.dfy ===
/**
 The k-factor store: a persisted map from "<tracer>_<recon profile>" to the append-only history
 of calibration constants measured for that pair, with an order-statistics summary of one key.

 The backing file is abstracted to `Backing`: what a load finds (nothing, something unreadable,
 or a saved map) and what a save leaves behind: the saved map; the former backing when the file
 cannot be opened; an unreadable file when the write fails after truncating it. Failures are
 swallowed.
 */
module KFactorStore {
  import opened Wrappers
  import opened OrderStatistics

  type Store = map<string, seq<real>>

  /** Median, 25th and 75th percentiles and sample count of one key's history. */
  datatype KSummary = KSummary(median: real, p25: real, p75: real, count: nat)

  datatype Backing = Missing | Unreadable | Saved(content: Store)

  /** The key a (tracer, reconstruction profile) pair is stored under. */
  function StoreKey(tracer: string, reconProfile: string): (key: string)
    ensures |key| == |tracer| + 1 + |reconProfile|
    ensures key[..|tracer|] == tracer && key[|tracer|] == '_' && key[|tracer| + 1..] == reconProfile
  {
    tracer + "_" + reconProfile
  }

  /** The history under a key, empty when the key is absent. */
  function History(store: Store, key: string): (h: seq<real>)
    ensures key in store ==> h == store[key]
    ensures h != [] ==> key in store
  {
    if key in store then store[key] else []
  }

  /** A tracer name without an underscore is recovered from the key together with the profile,
      so two such pairs share a key only when they are the same pair. */
  lemma StoreKeyInjective(t1: string, p1: string, t2: string, p2: string)
    requires '_' !in t1 && '_' !in t2
    requires StoreKey(t1, p1) == StoreKey(t2, p2)
    ensures t1 == t2 && p1 == p2
  {
  }

  /** Without that condition two pairs can share a key: their histories are then merged. */
  lemma StoreKeyCanCollide()
    ensures StoreKey("F_1", "X") == StoreKey("F", "1_X")
  {
  }

  /** Appends `k` to the history of (tracer, profile): the history grows by one, ends in `k`, and
      keeps its earlier values; every other key keeps its history. */
  function AddKMeasurement(store: Store, tracer: string, reconProfile: string, k: real): (r: Store)
    ensures r.Keys == store.Keys + {StoreKey(tracer, reconProfile)}
    ensures |r[StoreKey(tracer, reconProfile)]| == |History(store, StoreKey(tracer, reconProfile))| + 1
    ensures r[StoreKey(tracer, reconProfile)][|History(store, StoreKey(tracer, reconProfile))|] == k
    ensures r[StoreKey(tracer, reconProfile)][..|History(store, StoreKey(tracer, reconProfile))|]
         == History(store, StoreKey(tracer, reconProfile))
    ensures forall key :: key in store && key != StoreKey(tracer, reconProfile) ==> r[key] == store[key]
  {
    var key := StoreKey(tracer, reconProfile);
    var grown := History(store, key) + [k];
    assert grown[..|History(store, key)|] == History(store, key);
    store[key := grown]
  }

  /** Summary of a sorted, non-empty sample: the median between the two middle elements, each
      quartile between the two ranks next to position q(n - 1)/4, and the three in order between
      the least and the greatest element. */
  function SummaryOfSorted(s: seq<real>): (r: KSummary)
    requires |s| > 0 && Sorted(s)
    ensures r.count == |s|
    ensures s[0] <= r.p25 <= r.median <= r.p75 <= s[|s| - 1]
    ensures s[(|s| - 1) / 2] <= r.median <= s[|s| / 2]
    ensures s[QuartileRank(|s|, 1)] <= r.p25 <= s[UpperRank(|s|, 1)]
    ensures s[QuartileRank(|s|, 3)] <= r.p75 <= s[UpperRank(|s|, 3)]
  {
    MedianIsSecondQuartile(s);
    QuartileMonotone(s, 1, 2);
    QuartileMonotone(s, 2, 3);
    QuartileMonotone(s, 0, 1);
    QuartileMonotone(s, 3, 4);
    QuartileEnds(s);
    KSummary(Median(s), Quartile(s, 1), Quartile(s, 3), |s|)
  }

  /** The least and the greatest element of the sorted sample are stored values. */
  lemma SortedEndsAreStored(values: seq<real>)
    requires |values| > 0
    ensures |SortAscending(values)| == |values|
    ensures SortAscending(values)[0] in values
    ensures SortAscending(values)[|values| - 1] in values
  {
    var s := SortAscending(values);
    assert s[0] in multiset(s) && s[|s| - 1] in multiset(s);
  }

  /** Summary of a history: none when it is empty; otherwise its count, with the 25th
      percentile, median and 75th percentile in order, and all three between the least and the
      greatest stored value. In the sorted history the median lies between the two middle
      elements, and each quartile between the two ranks next to position q(n - 1)/4. */
  function Summarize(values: seq<real>): (r: Option<KSummary>)
    ensures r.None? <==> |values| == 0
    ensures r.Some? ==> r.value.count == |values|
    ensures r.Some? ==> r.value.p25 <= r.value.median <= r.value.p75
    ensures r.Some? ==> exists i :: 0 <= i < |values| && values[i] <= r.value.p25
    ensures r.Some? ==> exists j :: 0 <= j < |values| && r.value.p75 <= values[j]
    ensures r.Some? ==> var s := SortAscending(values);
      s[(|s| - 1) / 2] <= r.value.median <= s[|s| / 2]
    ensures r.Some? ==> var s := SortAscending(values);
      s[QuartileRank(|s|, 1)] <= r.value.p25 <= s[UpperRank(|s|, 1)]
    ensures r.Some? ==> var s := SortAscending(values);
      s[QuartileRank(|s|, 3)] <= r.value.p75 <= s[UpperRank(|s|, 3)]
  {
    if |values| == 0 then None
    else
      var s := SortAscending(values);
      var summary := SummaryOfSorted(s);
      SortedEndsAreStored(values);
      assert s[0] in values && s[0] <= summary.p25;
      assert s[|s| - 1] in values && summary.p75 <= s[|s| - 1];
      Some(summary)
  }

  /** A single measurement summarises to itself, three times, with count one. */
  lemma SummarizeSingleton(v: real)
    ensures Summarize([v]) == Some(KSummary(v, v, v, 1))
  {
    assert SortAscending([v]) == [v] by {
      SortedUnique(SortAscending([v]), [v]);
    }
  }

  /** The summary depends only on which values are stored, not on their order. */
  lemma SummarizeIgnoresOrder(a: seq<real>, b: seq<real>)
    requires multiset(a) == multiset(b)
    ensures Summarize(a) == Summarize(b)
  {
    SortIgnoresOrder(a, b);
    assert |a| == |multiset(a)| == |multiset(b)| == |b|;
  }

  /** Summary of the history of (tracer, profile): none exactly when the key is absent or its
      history is empty; otherwise the count is the history's length. */
  function SummarizeK(store: Store, tracer: string, reconProfile: string): (r: Option<KSummary>)
    ensures r.None? <==> StoreKey(tracer, reconProfile) !in store || |store[StoreKey(tracer, reconProfile)]| == 0
    ensures r.Some? ==> r.value.count == |store[StoreKey(tracer, reconProfile)]|
  {
    Summarize(History(store, StoreKey(tracer, reconProfile)))
  }

  /** After an append the key has a summary counting one more value; appending to an empty
      history gives (k, k, k, 1). */
  lemma AddThenSummarize(store: Store, tracer: string, reconProfile: string, k: real)
    ensures SummarizeK(AddKMeasurement(store, tracer, reconProfile, k), tracer, reconProfile).Some?
    ensures SummarizeK(AddKMeasurement(store, tracer, reconProfile, k), tracer, reconProfile).value.count
         == |History(store, StoreKey(tracer, reconProfile))| + 1
    ensures History(store, StoreKey(tracer, reconProfile)) == [] ==>
      SummarizeK(AddKMeasurement(store, tracer, reconProfile, k), tracer, reconProfile) == Some(KSummary(k, k, k, 1))
  {
    var key := StoreKey(tracer, reconProfile);
    if History(store, key) == [] {
      var r := AddKMeasurement(store, tracer, reconProfile, k);
      assert r[key] == [k];
      SummarizeSingleton(k);
    }
  }

  /** An append leaves the summary of every other key unchanged. */
  lemma AddKeepsOtherSummaries(store: Store, tracer: string, reconProfile: string, k: real,
                               otherTracer: string, otherProfile: string)
    requires StoreKey(otherTracer, otherProfile) != StoreKey(tracer, reconProfile)
    ensures SummarizeK(AddKMeasurement(store, tracer, reconProfile, k), otherTracer, otherProfile)
         == SummarizeK(store, otherTracer, otherProfile)
  {
  }

  /** What a load returns: the saved map, or an empty map when the file is missing or cannot
      be read. */
  function LoadStore(b: Backing): (r: Store)
    ensures b.Saved? ==> r == b.content
    ensures !b.Saved? ==> r == map[]
  {
    match b
    case Saved(content) => content
    case _ => map[]
  }

  /** How a write of the store file ends. The file is opened for writing, which truncates it,
      before the content is written; a failure is swallowed either way. */
  datatype WriteOutcome =
    | Written      // the whole map was written
    | NotOpened    // the file could not be opened; it keeps its former content
    | Interrupted  // the file was truncated but not completely written

  /** What a save leaves behind: the saved map after a complete write, the former backing when
      the file could not be opened, and an unreadable file after an interrupted write, which the
      next load sees as an empty map. */
  function SaveStore(b: Backing, store: Store, outcome: WriteOutcome): (r: Backing)
    ensures outcome == Written ==> LoadStore(r) == store
    ensures outcome == NotOpened ==> r == b
    ensures outcome == Interrupted ==> !r.Saved? && LoadStore(r) == map[]
  {
    match outcome
    case Written => Saved(store)
    case NotOpened => b
    case Interrupted => Unreadable
  }

  /** Saving what was loaded changes nothing a later load can see, unless the write is
      interrupted. */
  lemma SaveOfLoadIsNoOp(b: Backing, outcome: WriteOutcome)
    requires outcome != Interrupted
    ensures LoadStore(SaveStore(b, LoadStore(b), outcome)) == LoadStore(b)
  {
  }

  /** An interrupted save loses every history: afterwards no key has a summary. */
  lemma InterruptedSaveLosesHistory(b: Backing, store: Store, tracer: string, reconProfile: string)
    ensures SummarizeK(LoadStore(SaveStore(b, store, Interrupted)), tracer, reconProfile).None?
  {
  }

  /** An append followed by the save the program performs: the returned map is the appended one;
      after a complete write it is exactly what the next load sees, after a failed open the
      backing is unchanged, and after an interrupted write the next load sees an empty map. */
  function AddKMeasurementAndSave(b: Backing, outcome: WriteOutcome, store: Store, tracer: string,
                                  reconProfile: string, k: real): (r: (Store, Backing))
    ensures r.0 == AddKMeasurement(store, tracer, reconProfile, k)
    ensures outcome == Written ==> LoadStore(r.1) == r.0
    ensures outcome == NotOpened ==> r.1 == b
    ensures outcome == Interrupted ==> LoadStore(r.1) == map[]
  {
    var grown := AddKMeasurement(store, tracer, reconProfile, k);
    (grown, SaveStore(b, grown, outcome))
  }

  /** The site summary: the summary of a freshly loaded store, none when the file is missing or
      unreadable. */
  function GetSiteKSummary(b: Backing, tracer: string, reconProfile: string): (r: Option<KSummary>)
    ensures !b.Saved? ==> r.None?
    ensures b.Saved? ==> r == SummarizeK(b.content, tracer, reconProfile)
  {
    SummarizeK(LoadStore(b), tracer, reconProfile)
  }
}

=== FILE: order_statistics.dfy ===
/**
 Order statistics over real samples: an ascending sort, the median, and quartiles by linear
 interpolation between the two nearest ranks (numpy's default percentile method).
 */
module OrderStatistics {
  import opened RealMath

  predicate Sorted(s: seq<real>) {
    forall i, j :: 0 <= i < j < |s| ==> s[i] <= s[j]
  }

  /** A lower bound of `s` and of `x` bounds every element of a sequence holding them. */
  lemma BoundedBelow(lo: real, r: seq<real>, s: seq<real>, x: real)
    requires multiset(r) == multiset(s) + multiset{x}
    requires lo <= x && forall i :: 0 <= i < |s| ==> lo <= s[i]
    ensures forall j :: 0 <= j < |r| ==> lo <= r[j]
  {
    forall j | 0 <= j < |r| ensures lo <= r[j] {
      assert r[j] in multiset(r);
      assert r[j] == x || r[j] in s;
    }
  }

  /** Inserts `x` into a sorted sequence before the first element not smaller than it. */
  function Insert(x: real, s: seq<real>): (r: seq<real>)
    requires Sorted(s)
    ensures Sorted(r)
    ensures multiset(r) == multiset(s) + multiset{x}
  {
    if |s| == 0 then [x]
    else if x <= s[0] then [x] + s
    else
      var rest := Insert(x, s[1..]);
      assert s == [s[0]] + s[1..];
      BoundedBelow(s[0], rest, s[1..], x);
      assert Sorted([s[0]] + rest);
      [s[0]] + rest
  }

  /** Insertion sort: an ascending permutation of `s`. */
  function SortAscending(s: seq<real>): (r: seq<real>)
    ensures Sorted(r)
    ensures multiset(r) == multiset(s)
    ensures |r| == |s|
  {
    if |s| == 0 then []
    else
      assert s == [s[0]] + s[1..];
      Insert(s[0], SortAscending(s[1..]))
  }

  /** The head of a sorted sequence is no larger than any of its elements. */
  lemma SortedHeadIsLeast(s: seq<real>, x: real)
    requires Sorted(s) && x in multiset(s)
    ensures |s| > 0 && s[0] <= x
  {
    assert x in s;
  }

  /** Dropping the head removes exactly one copy of it from the multiset. */
  lemma TailMultiset(a: seq<real>)
    requires |a| > 0
    ensures multiset(a[1..]) == multiset(a) - multiset{a[0]}
  {
    assert a == [a[0]] + a[1..];
    assert multiset(a) == multiset{a[0]} + multiset(a[1..]);
  }

  /** A sorted sequence is determined by its multiset of elements. */
  lemma {:induction false} SortedUnique(a: seq<real>, b: seq<real>)
    requires Sorted(a) && Sorted(b) && multiset(a) == multiset(b)
    ensures a == b
    decreases |a|
  {
    if |a| == 0 {
      assert |multiset(b)| == 0;
    } else {
      SortedHeadIsLeast(b, a[0]);
      SortedHeadIsLeast(a, b[0]);
      assert b[0] == a[0];
      TailMultiset(a);
      TailMultiset(b);
      SortedUnique(a[1..], b[1..]);
      assert a == [a[0]] + a[1..] && b == [b[0]] + b[1..];
    }
  }

  /** Two samples with the same elements sort to the same sequence. */
  lemma SortIgnoresOrder(a: seq<real>, b: seq<real>)
    requires multiset(a) == multiset(b)
    ensures SortAscending(a) == SortAscending(b)
  {
    SortedUnique(SortAscending(a), SortAscending(b));
  }

  /** The point a fraction `f` of the way from `a` to `b`. */
  function Lerp(a: real, b: real, f: real): real {
    a + f * (b - a)
  }

  /** Interpolating between ordered ends stays between them and grows with the fraction. */
  lemma LerpBetween(a: real, b: real, f: real, g: real)
    requires a <= b && 0.0 <= f <= g <= 1.0
    ensures a <= Lerp(a, b, f) <= Lerp(a, b, g) <= b
  {
    var d := b - a;
    assert d * 0.0 <= d * f <= d * g <= d * 1.0 by {
      ScaleMonotone(d, 0.0, f);
      ScaleMonotone(d, f, g);
      ScaleMonotone(d, g, 1.0);
    }
    assert Lerp(a, b, f) == a + f * d && Lerp(a, b, g) == a + g * d;
  }

  /** Rank below which the `q`-th quartile of `n` samples lies: floor(q * (n - 1) / 4). */
  function QuartileRank(n: nat, q: nat): (i: nat)
    requires n > 0 && q <= 4
    ensures i <= n - 1
    ensures (q * (n - 1)) % 4 != 0 ==> i < n - 1
    ensures i * 4 <= q * (n - 1) < i * 4 + 4
  {
    assert q * (n - 1) <= 4 * (n - 1);
    (q * (n - 1)) / 4
  }

  /** Rank at or above which the `q`-th quartile of `n` samples lies: the same rank on an exact
      position, the next one otherwise. */
  function UpperRank(n: nat, q: nat): (i: nat)
    requires n > 0 && q <= 4
    ensures QuartileRank(n, q) <= i <= n - 1
    ensures i <= QuartileRank(n, q) + 1
  {
    if (q * (n - 1)) % 4 == 0 then QuartileRank(n, q) else QuartileRank(n, q) + 1
  }

  /** The `q`-th quartile (`q` in 0..4) of a sorted sample: the value at rank position
      q * (n - 1) / 4, interpolating linearly between the two nearest ranks. On an exact rank it
      is the element there; otherwise, on a sorted sample, it lies between the two neighbours. */
  function Quartile(s: seq<real>, q: nat): (r: real)
    requires |s| > 0 && q <= 4
    ensures (q * (|s| - 1)) % 4 == 0 ==> r == s[QuartileRank(|s|, q)]
    ensures (q * (|s| - 1)) % 4 != 0 && Sorted(s) ==>
      s[QuartileRank(|s|, q)] <= r <= s[QuartileRank(|s|, q) + 1]
    ensures Sorted(s) ==> s[QuartileRank(|s|, q)] <= r <= s[UpperRank(|s|, q)]
  {
    var pos := q * (|s| - 1);
    var lo := QuartileRank(|s|, q);
    if pos % 4 == 0 then s[lo]
    else
      var f := (pos % 4) as real / 4.0;
      assert Sorted(s) ==> s[lo] <= Lerp(s[lo], s[lo + 1], f) <= s[lo + 1] by {
        if Sorted(s) {
          LerpBetween(s[lo], s[lo + 1], f, 1.0);
        }
      }
      Lerp(s[lo], s[lo + 1], f)
  }

  /** The middle element, or the mean of the two middle elements (numpy's median). On a sorted
      sample it lies between the two middle elements, which coincide for an odd count. */
  function Median(s: seq<real>): (r: real)
    requires |s| > 0
    ensures |s| % 2 == 1 ==> r == s[|s| / 2]
    ensures Sorted(s) ==> s[(|s| - 1) / 2] <= r <= s[|s| / 2]
  {
    var n := |s|;
    if n % 2 == 1 then s[n / 2] else (s[n / 2 - 1] + s[n / 2]) / 2.0
  }

  /** The median is the second quartile. */
  lemma MedianIsSecondQuartile(s: seq<real>)
    requires |s| > 0
    ensures Median(s) == Quartile(s, 2)
  {
    var n := |s|;
    var h := n / 2;
    if n % 2 == 1 {
      assert n == 2 * h + 1;
      assert 2 * (n - 1) == 4 * h;
      assert QuartileRank(n, 2) == h;
    } else {
      assert n == 2 * h && h >= 1;
      assert 2 * (n - 1) == 4 * (h - 1) + 2;
      assert QuartileRank(n, 2) == h - 1;
      assert (2 * (n - 1)) % 4 == 2;
      assert Lerp(s[h - 1], s[h], 2 as real / 4.0) == (s[h - 1] + s[h]) / 2.0;
    }
  }

  /** Quartile 0 is the least element and quartile 4 the greatest. */
  lemma QuartileEnds(s: seq<real>)
    requires |s| > 0
    ensures Quartile(s, 0) == s[0]
    ensures Quartile(s, 4) == s[|s| - 1]
  {
  }

  /** On a sorted sample a higher quartile is never smaller. */
  lemma QuartileMonotone(s: seq<real>, q1: nat, q2: nat)
    requires |s| > 0 && Sorted(s) && q1 <= q2 <= 4
    ensures Quartile(s, q1) <= Quartile(s, q2)
  {
    var n := |s|;
    var p1, p2 := q1 * (n - 1), q2 * (n - 1);
    assert p1 <= p2;
    var lo1, lo2 := QuartileRank(n, q1), QuartileRank(n, q2);
    assert lo1 <= lo2;
    if lo1 == lo2 && p1 % 4 != 0 {
      assert p1 % 4 <= p2 % 4;
      LerpBetween(s[lo1], s[lo1 + 1], (p1 % 4) as real / 4.0, (p2 % 4) as real / 4.0);
    } else if lo1 < lo2 && p1 % 4 != 0 {
      assert s[lo1 + 1] <= s[lo2];
    }
  }
}

=== FILE: pediatrics.dfy ===
/**
 Pediatric policy of the PET physics model: the weight-keyed age-group table, the strict
 35 kg pediatric gate, and the dose-factor, SNR-target, scan-time-ceiling and LBM-factor
 tables with their fallbacks.
 */
module Pediatrics {
  import opened Wrappers
  import opened RealMath

  datatype AgeGroup = Neonate | Infant | Toddler | Child | Adolescent

  /** The age-group table in the order it is searched. */
  const AgeGroups: seq<AgeGroup> := [Neonate, Infant, Toddler, Child, Adolescent]

  /** Position of a group in the search order. */
  function Rank(g: AgeGroup): nat {
    match g
    case Neonate => 0
    case Infant => 1
    case Toddler => 2
    case Child => 3
    case Adolescent => 4
  }

  function MinWeight(g: AgeGroup): real {
    match g
    case Neonate => 0.5
    case Infant => 5.0
    case Toddler => 15.0
    case Child => 25.0
    case Adolescent => 50.0
  }

  function MaxWeight(g: AgeGroup): real {
    match g
    case Neonate => 5.0
    case Infant => 15.0
    case Toddler => 25.0
    case Child => 50.0
    case Adolescent => 100.0
  }

  /** Both ends of a group's weight range are inclusive. */
  predicate InWeightRange(g: AgeGroup, w: real) {
    MinWeight(g) <= w <= MaxWeight(g)
  }

  /** Index of the first group of `groups` whose range holds `w`. */
  function FirstInRange(groups: seq<AgeGroup>, w: real): (r: Option<nat>)
    ensures r.Some? ==> r.value < |groups| && InWeightRange(groups[r.value], w)
    ensures r.Some? ==> forall j :: 0 <= j < r.value ==> !InWeightRange(groups[j], w)
    ensures r.None? ==> forall j :: 0 <= j < |groups| ==> !InWeightRange(groups[j], w)
  {
    if |groups| == 0 then None
    else if InWeightRange(groups[0], w) then Some(0)
    else match FirstInRange(groups[1..], w)
      case None => None
      case Some(i) => Some(i + 1)
  }

  /** The first group in table order whose inclusive range holds the weight; none outside
      [0.5, 100.0] kg. */
  function AgeGroupOf(w: real): (r: Option<AgeGroup>)
    ensures r.None? <==> w < 0.5 || w > 100.0
    ensures r.Some? ==> InWeightRange(r.value, w)
    ensures r.Some? ==> forall g :: Rank(g) < Rank(r.value) ==> !InWeightRange(g, w)
  {
    assert forall g :: AgeGroups[Rank(g)] == g;
    var found := FirstInRange(AgeGroups, w);
    if found.None? then
      assert !InWeightRange(AgeGroups[0], w) && !InWeightRange(AgeGroups[1], w);
      assert !InWeightRange(AgeGroups[2], w) && !InWeightRange(AgeGroups[3], w);
      assert !InWeightRange(AgeGroups[4], w);
      None
    else
      Some(AgeGroups[found.value])
  }

  /** A weight on the border of two groups belongs to the lighter one. */
  lemma AgeGroupBoundaries()
    ensures AgeGroupOf(0.5) == Some(Neonate)
    ensures AgeGroupOf(5.0) == Some(Neonate)
    ensures AgeGroupOf(15.0) == Some(Infant)
    ensures AgeGroupOf(25.0) == Some(Toddler)
    ensures AgeGroupOf(50.0) == Some(Child)
    ensures AgeGroupOf(100.0) == Some(Adolescent)
  {
    assert InWeightRange(Neonate, 5.0) && InWeightRange(Infant, 15.0);
    assert InWeightRange(Toddler, 25.0) && InWeightRange(Child, 50.0);
  }

  /** The pediatric gate: strictly lighter than 35 kg. Read against the age-group table, a
      pediatric weight of at least 0.5 kg falls in one of the four lighter groups, and an adult
      weight in the table falls in the child or the adolescent group. */
  function IsPediatric(w: real): (b: bool)
    ensures b && w >= 0.5 ==> AgeGroupOf(w).Some? && AgeGroupOf(w).value != Adolescent
    ensures b && w < 0.5 ==> AgeGroupOf(w).None?
    ensures !b && AgeGroupOf(w).Some? ==> AgeGroupOf(w).value in {Child, Adolescent}
  {
    w < 35.0
  }

  /** The gate and the age-group table are independent: 35 kg is adult, yet in the child
      range; a weight below 0.5 kg is pediatric, yet in no range. */
  lemma PediatricGateIsNotTheTable()
    ensures !IsPediatric(35.0) && AgeGroupOf(35.0) == Some(Child)
    ensures IsPediatric(34.9) && AgeGroupOf(34.9) == Some(Child)
    ensures IsPediatric(0.4) && AgeGroupOf(0.4).None?
  {
    assert InWeightRange(Child, 35.0) && InWeightRange(Child, 34.9);
  }

  /** A pediatric weight that falls in a range falls in one of the four lighter groups. */
  lemma PediatricGroupIsNotAdolescent(w: real)
    requires IsPediatric(w) && AgeGroupOf(w).Some?
    ensures AgeGroupOf(w).value != Adolescent
  {
  }

  function DoseFactor(g: AgeGroup): real {
    match g
    case Neonate => 0.02
    case Infant => 0.05
    case Toddler => 0.10
    case Child => 0.15
    case Adolescent => 0.75
  }

  function ScanTimeCeiling(g: AgeGroup): real {
    match g
    case Neonate => 30.0
    case Infant => 60.0
    case Toddler => 120.0
    case Child => 180.0
    case Adolescent => 240.0
  }

  function LbmFactor(g: AgeGroup): real {
    match g
    case Neonate => 0.85
    case Infant => 0.80
    case Toddler => 0.75
    case Child => 0.70
    case Adolescent => 0.65
  }

  /** The group's dose factor, or the adult factor 1.0 when the weight is in no range. A
      pediatric weight in a range gets at most the child factor 0.15. */
  function PediatricDoseFactor(w: real): (r: real)
    ensures 0.0 < r <= 1.0
    ensures AgeGroupOf(w).None? ==> r == 1.0
    ensures AgeGroupOf(w).Some? ==> r == DoseFactor(AgeGroupOf(w).value)
    ensures IsPediatric(w) && AgeGroupOf(w).Some? ==> r <= 0.15
  {
    match AgeGroupOf(w)
    case None => 1.0
    case Some(g) => DoseFactor(g)
  }

  /** The tracer's base target (looked up by the exact key, 8.0 unless it is "PSMA") scaled by
      the dose factor and clamped to [5.0, 12.0]; 12.0 when the weight is in no range. */
  function PediatricSnrTarget(tracer: string, w: real): (r: real)
    ensures 5.0 <= r <= 12.0
    ensures AgeGroupOf(w).None? ==> r == 12.0
  {
    var base := if tracer == "PSMA" then 10.0 else 8.0;
    var adjusted := base * (0.8 + 0.4 * (PediatricDoseFactor(w) / 0.15));
    Max(5.0, Min(12.0, adjusted))
  }

  /** The target table is keyed by the exact string: a lower-case "psma" gets the FDG base. */
  lemma PediatricSnrTargetIsCaseSensitive(w: real)
    ensures PediatricSnrTarget("psma", w) == PediatricSnrTarget("FDG", w)
    ensures PediatricSnrTarget("PSMA", 3.0) != PediatricSnrTarget("psma", 3.0)
  {
    assert AgeGroupOf(3.0) == Some(Neonate) by {
      assert InWeightRange(Neonate, 3.0);
    }
  }

  /** The scaled target across the table: below the child group the factor lowers the base,
      the child group raises it by a fifth, and the clamp takes over above 12. */
  lemma PediatricSnrTargetValues()
    ensures PediatricSnrTarget("FDG", 20.0) == 128.0 / 15.0
    ensures PediatricSnrTarget("PSMA", 3.0) == 128.0 / 15.0
    ensures PediatricSnrTarget("FDG", 30.0) == 9.6
    ensures PediatricSnrTarget("PSMA", 30.0) == 12.0
    ensures PediatricSnrTarget("FDG", 60.0) == 12.0
  {
    assert AgeGroupOf(20.0) == Some(Toddler) by {
      assert InWeightRange(Toddler, 20.0);
    }
    assert AgeGroupOf(3.0) == Some(Neonate) by {
      assert InWeightRange(Neonate, 3.0);
    }
    assert AgeGroupOf(30.0) == Some(Child) by {
      assert InWeightRange(Child, 30.0);
    }
    assert AgeGroupOf(60.0) == Some(Adolescent) by {
      assert InWeightRange(Adolescent, 60.0);
    }
  }

  /** The group's scan-time ceiling, or 180.0 when the weight is in no range. */
  function PediatricScanTimeLimit(w: real): (r: real)
    ensures 30.0 <= r <= 240.0
    ensures AgeGroupOf(w).None? ==> r == 180.0
    ensures AgeGroupOf(w).Some? ==> r == ScanTimeCeiling(AgeGroupOf(w).value)
    ensures IsPediatric(w) ==> r <= 180.0
  {
    match AgeGroupOf(w)
    case None => 180.0
    case Some(g) => ScanTimeCeiling(g)
  }
}

=== FILE: protocol_solvers.dfy ===
/**
 The three protocol solvers of the PET physics model. Each derives a dwell time per bed
 position, applies the pediatric ceiling, turns the dwell into a bed velocity clamped to
 [0.5, 50.0] mm/s and rounded to one decimal, back-derives the dwell from the rounded velocity
 and predicts SNR and COV for it. They differ in where the dwell comes from and in the
 convergence flag they report.
 */
module ProtocolSolvers {
  import opened Wrappers
  import opened RealMath
  import opened Device
  import opened Pediatrics
  import opened SnrModel

  const MinVelocity: real := 0.5
  const MaxVelocity: real := 50.0

  /** Floor on the dwell before it is divided into the field of view. */
  const BedTimeFloor: real := 0.000001

  /** Floor on activity times sensitivity before the required NEC is divided by it. */
  const CountRateFloor: real := 0.000001

  /** The standard solver converges when the predicted SNR is this close to the target. */
  const SnrTolerance: real := 0.3

  /** The low-dose solver converges when the velocity is this far above the lower bound. */
  const SaturationMargin: real := 0.000001

  /** Outputs shared by all three solvers. `cov` is None where the program reports NaN. */
  datatype Solution = Solution(velocity: real, dwell: real, scanMinutes: real, snr: real, cov: Option<real>)

  datatype StandardResult = StandardResult(solution: Solution, converged: bool)

  datatype LowDoseResult = LowDoseResult(activity: real, solution: Solution, converged: bool)

  /** Velocity for a dwell: one field of view per dwell, clamped to [0.5, 50.0] and rounded to a
      multiple of 0.1 no further than 0.05 from the clamped value. */
  function BedVelocity(bedTimeS: real): (v: real)
    ensures MinVelocity <= v <= MaxVelocity && OnTenthGrid(v)
    ensures Abs(v - Clamp(MinVelocity, MaxVelocity, AxialFovMm / Max(bedTimeS, BedTimeFloor))) <= 0.05
  {
    var clamped := Clamp(MinVelocity, MaxVelocity, AxialFovMm / Max(bedTimeS, BedTimeFloor));
    RoundTenthStaysInRange(MinVelocity, MaxVelocity, clamped);
    RoundTenth(clamped)
  }

  /** Dividing the field of view by a longer dwell gives a slower velocity. */
  lemma FovOverDwellAntitone(d1: real, d2: real)
    requires 0.0 < d1 <= d2
    ensures AxialFovMm / d2 <= AxialFovMm / d1
  {
    var v1, v2 := AxialFovMm / d1, AxialFovMm / d2;
    assert v1 * d1 == AxialFovMm && v2 * d2 == AxialFovMm;
  }

  /** A longer dwell never gives a faster bed. */
  lemma BedVelocityAntitone(t1: real, t2: real)
    requires t1 <= t2
    ensures BedVelocity(t2) <= BedVelocity(t1)
  {
    var d1, d2 := Max(t1, BedTimeFloor), Max(t2, BedTimeFloor);
    FovOverDwellAntitone(d1, d2);
    var c1 := Clamp(MinVelocity, MaxVelocity, AxialFovMm / d1);
    var c2 := Clamp(MinVelocity, MaxVelocity, AxialFovMm / d2);
    assert c2 <= c1;
    RoundTenthMonotone(c2, c1);
  }

  /** What every solver reports: a velocity on the 0.1 grid inside the bounds, the dwell that
      covers one field of view at that velocity, the scan time for the range at that velocity,
      the SNR predicted for that dwell, and COV as its reciprocal, undefined unless SNR > 0. */
  ghost predicate ReportsConsistently(m: Transcendentals, s: Solution, activityMbq: real, k: real,
                                      gain: real, rangeMm: real, tracer: string)
    requires m.Valid()
  {
    && MinVelocity <= s.velocity <= MaxVelocity && OnTenthGrid(s.velocity)
    && CoversRange(s, rangeMm)
    && s.snr == PredictedSnr(m, k, activityMbq, s.dwell, gain, tracer)
  }

  /** The arithmetic between the reported fields: the dwell covers one field of view, the scan
      time covers the range, and COV is the reciprocal of a positive SNR. */
  ghost predicate CoversRange(s: Solution, rangeMm: real) {
    && s.dwell * s.velocity == AxialFovMm
    && s.scanMinutes * s.velocity * 60.0 == rangeMm
    && (s.cov.Some? <==> s.snr > 0.0)
    && (s.cov.Some? ==> s.cov.value * s.snr == 1.0)
  }

  /** The solution reported at velocity `v` with predicted SNR `snr`. */
  function SolutionAt(v: real, rangeMm: real, snr: real): (s: Solution)
    requires v > 0.0
    ensures s.velocity == v && s.dwell == AxialFovMm / v && s.snr == snr
    ensures CoversRange(s, rangeMm)
  {
    var minutes := rangeMm / v / 60.0;
    assert minutes * v * 60.0 == rangeMm by {
      assert minutes * 60.0 == rangeMm / v;
      assert minutes * v * 60.0 == (minutes * 60.0) * v;
    }
    Solution(v, AxialFovMm / v, minutes, snr, if snr > 0.0 then Some(1.0 / snr) else None)
  }

  /** The shared tail of the solvers, from a pre-rounding dwell to the reported solution. */
  function SolutionForBedTime(m: Transcendentals, bedTimeS: real, activityMbq: real, k: real,
                              gain: real, rangeMm: real, tracer: string): (s: Solution)
    requires m.Valid()
    ensures ReportsConsistently(m, s, activityMbq, k, gain, rangeMm, tracer)
    ensures s.velocity == BedVelocity(bedTimeS)
  {
    var v := BedVelocity(bedTimeS);
    SolutionAt(v, rangeMm, PredictedSnr(m, k, activityMbq, AxialFovMm / v, gain, tracer))
  }

  /** NEC needed for the target SNR, with k floored at epsilon: the NEC whose square root, times
      the floored k and the gain, gives back the target in absolute value. */
  function RequiredNec(k: real, gain: real, snrTarget: real): (r: real)
    requires gain != 0.0
    ensures r >= 0.0
    ensures r * (Max(k, Epsilon) * gain) * (Max(k, Epsilon) * gain) == snrTarget * snrTarget
  {
    var c := Max(k, Epsilon) * gain;
    var ratio := snrTarget / c;
    assert ratio * c == snrTarget;
    assert (ratio * ratio) * c * c == (ratio * c) * (ratio * c);
    ratio * ratio
  }

  /** Dwell that reaches the required NEC at the given activity, scaled by the BMI multiplier:
      the count rate (floored) times the dwell is the required NEC times the multiplier. */
  function RequiredBedTime(k: real, gain: real, snrTarget: real, multBmi: real, activityMbq: real, tracer: string): (t: real)
    requires gain != 0.0
    ensures Max(activityMbq * 9100.0, CountRateFloor) * t == RequiredNec(k, gain, snrTarget) * multBmi
    ensures multBmi >= 0.0 ==> t >= 0.0
  {
    var rate := Max(activityMbq * SystemSensitivity(tracer), CountRateFloor);
    var q := RequiredNec(k, gain, snrTarget) / rate;
    assert rate * q == RequiredNec(k, gain, snrTarget);
    assert multBmi >= 0.0 ==> q * multBmi >= 0.0 by {
      if multBmi >= 0.0 {
        ScaleMonotone(multBmi, 0.0, q);
      }
    }
    q * multBmi
  }

  /** The required dwell, capped at the pediatric scan-time ceiling of `ceilingWeight` when one
      is given. */
  function CappedBedTime(k: real, gain: real, snrTarget: real, multBmi: real, activityMbq: real,
                         tracer: string, ceilingWeight: Option<real>): (t: real)
    requires gain != 0.0
    ensures t <= RequiredBedTime(k, gain, snrTarget, multBmi, activityMbq, tracer)
    ensures ceilingWeight.Some? ==> t <= PediatricScanTimeLimit(ceilingWeight.value)
    ensures t == RequiredBedTime(k, gain, snrTarget, multBmi, activityMbq, tracer)
         || (ceilingWeight.Some? && t == PediatricScanTimeLimit(ceilingWeight.value))
  {
    var t := RequiredBedTime(k, gain, snrTarget, multBmi, activityMbq, tracer);
    match ceilingWeight
    case None => t
    case Some(w) => Min(t, PediatricScanTimeLimit(w))
  }

  /** Inverting the SNR model: at the uncapped, unrounded dwell the predicted SNR squared is the
      target squared times the BMI multiplier, so with a multiplier of 1 it is the target. */
  lemma StandardInvertsSnrModel(m: Transcendentals, k: real, gain: real, snrTarget: real,
                                multBmi: real, aEffMbq: real, tracer: string)
    requires m.Valid() && gain != 0.0 && k >= Epsilon
    requires aEffMbq * SystemSensitivity(tracer) >= CountRateFloor
    requires Nec(aEffMbq, RequiredBedTime(k, gain, snrTarget, multBmi, aEffMbq, tracer), tracer) >= Epsilon
    ensures var snr := PredictedSnr(m, k, aEffMbq, RequiredBedTime(k, gain, snrTarget, multBmi, aEffMbq, tracer), gain, tracer);
            snr * snr == snrTarget * snrTarget * multBmi
  {
    var rate := aEffMbq * SystemSensitivity(tracer);
    var ratio := snrTarget / (k * gain);
    assert ratio * (k * gain) == snrTarget;
    var need := ratio * ratio;
    assert need == RequiredNec(k, gain, snrTarget);
    var q := need / rate;
    assert q * rate == need;
    var t := q * multBmi;
    assert t == RequiredBedTime(k, gain, snrTarget, multBmi, aEffMbq, tracer);
    assert Nec(aEffMbq, t, tracer) == need * multBmi by {
      assert aEffMbq * t * SystemSensitivity(tracer) == (q * rate) * multBmi;
    }
    assert k * k * (need * multBmi) * gain * gain == (ratio * (k * gain)) * (ratio * (k * gain)) * multBmi;
  }

  /** Standard protocol: dwell from the target SNR and the injected (decay-corrected) activity,
      capped for a pediatric patient whose weight is known; converged when the predicted SNR is
      within 0.3 of the target. */
  function SolveStandard(m: Transcendentals, aEffMbq: real, k: real, gain: real, snrTarget: real,
                         multBmi: real, rangeMm: real, tracer: string := "FDG", isPediatric: bool := false,
                         weight: Option<real> := None): (r: StandardResult)
    requires m.Valid() && gain != 0.0
    ensures ReportsConsistently(m, r.solution, aEffMbq, k, gain, rangeMm, tracer)
    ensures r.solution.velocity
         == BedVelocity(CappedBedTime(k, gain, snrTarget, multBmi, aEffMbq, tracer, if isPediatric then weight else None))
    ensures r.converged <==> Abs(r.solution.snr - snrTarget) <= SnrTolerance
    ensures isPediatric && weight.Some? ==> BedVelocity(PediatricScanTimeLimit(weight.value)) <= r.solution.velocity
  {
    var ceilingWeight := if isPediatric then weight else None;
    var t := CappedBedTime(k, gain, snrTarget, multBmi, aEffMbq, tracer, ceilingWeight);
    assert ceilingWeight.Some? ==> BedVelocity(PediatricScanTimeLimit(ceilingWeight.value)) <= BedVelocity(t) by {
      if ceilingWeight.Some? {
        BedVelocityAntitone(t, PediatricScanTimeLimit(ceilingWeight.value));
      }
    }
    var s := SolutionForBedTime(m, t, aEffMbq, k, gain, rangeMm, tracer);
    StandardResult(s, Abs(s.snr - snrTarget) <= SnrTolerance)
  }

  /** Low-dose activity: dose per kg times weight, scaled down by the dose factor for a
      pediatric patient whose weight is in the table, and never above the adult activity for a
      non-negative dose. */
  function LowDoseActivity(dosePerKg: real, weight: real, isPediatric: bool): (a: real)
    ensures !isPediatric || AgeGroupOf(weight).None? ==> a == dosePerKg * weight
    ensures isPediatric && AgeGroupOf(weight).Some? ==> a == dosePerKg * weight * DoseFactor(AgeGroupOf(weight).value)
    ensures dosePerKg * weight >= 0.0 ==> 0.0 <= a <= dosePerKg * weight
  {
    var adult := dosePerKg * weight;
    assert adult >= 0.0 ==> 0.0 <= adult * PediatricDoseFactor(weight) <= adult by {
      if adult >= 0.0 {
        ScaleBetween(adult, PediatricDoseFactor(weight));
      }
    }
    if isPediatric then adult * PediatricDoseFactor(weight) else adult
  }

  /** The pediatric low-dose activity never exceeds the adult one for the same weight. */
  lemma PediatricLowDoseNeverExceedsAdult(dosePerKg: real, weight: real)
    requires dosePerKg * weight >= 0.0
    ensures LowDoseActivity(dosePerKg, weight, true) <= LowDoseActivity(dosePerKg, weight, false)
    ensures AgeGroupOf(weight).None? ==> LowDoseActivity(dosePerKg, weight, true) == LowDoseActivity(dosePerKg, weight, false)
  {
    var a := dosePerKg * weight;
    assert a * PediatricDoseFactor(weight) <= a * 1.0;
  }

  /** On the 0.1 grid, the only velocity between 0.5 and 0.6 is 0.5 itself. */
  lemma GridAboveFloor(v: real)
    requires OnTenthGrid(v) && v >= MinVelocity
    ensures v != MinVelocity ==> v >= 0.6
  {
    assert (v * 10.0).Floor as real == v * 10.0;
  }

  /** Low-dose protocol: dwell from the target SNR and the low-dose activity, capped for a
      pediatric patient; converged when the velocity did not saturate at the lower bound, which
      on the 0.1 grid means exactly that it is not 0.5. */
  function SolveLowDose(m: Transcendentals, dosePerKg: real, weight: real, k: real, gain: real,
                        snrTarget: real, multBmi: real, rangeMm: real, tracer: string := "FDG",
                        isPediatric: bool := false): (r: LowDoseResult)
    requires m.Valid() && gain != 0.0
    ensures r.activity == LowDoseActivity(dosePerKg, weight, isPediatric)
    ensures ReportsConsistently(m, r.solution, r.activity, k, gain, rangeMm, tracer)
    ensures r.solution.velocity
         == BedVelocity(CappedBedTime(k, gain, snrTarget, multBmi, r.activity, tracer, if isPediatric then Some(weight) else None))
    ensures r.converged <==> r.solution.velocity > MinVelocity + SaturationMargin
    ensures r.converged <==> r.solution.velocity != MinVelocity
    ensures isPediatric ==> BedVelocity(PediatricScanTimeLimit(weight)) <= r.solution.velocity
  {
    var a := LowDoseActivity(dosePerKg, weight, isPediatric);
    var ceilingWeight := if isPediatric then Some(weight) else None;
    var t := CappedBedTime(k, gain, snrTarget, multBmi, a, tracer, ceilingWeight);
    assert isPediatric ==> BedVelocity(PediatricScanTimeLimit(weight)) <= BedVelocity(t) by {
      if isPediatric {
        BedVelocityAntitone(t, PediatricScanTimeLimit(weight));
      }
    }
    var s := SolutionForBedTime(m, t, a, k, gain, rangeMm, tracer);
    GridAboveFloor(s.velocity);
    LowDoseResult(a, s, s.velocity > MinVelocity + SaturationMargin)
  }

  /** Dwell multiplier for a pediatric fast scan: 0.5 + 0.3 * (dose factor / 0.15). */
  function FastReduction(weight: real): (r: real)
    ensures AgeGroupOf(weight) == Some(Neonate) ==> r == 0.54
    ensures AgeGroupOf(weight) == Some(Infant) ==> r == 0.6
    ensures AgeGroupOf(weight) == Some(Toddler) ==> r == 0.7
    ensures AgeGroupOf(weight) == Some(Child) ==> r == 0.8
    ensures AgeGroupOf(weight) == Some(Adolescent) ==> r == 2.0
    ensures AgeGroupOf(weight).None? ==> r == 2.5
  {
    0.5 + 0.3 * (PediatricDoseFactor(weight) / 0.15)
  }

  /** For a pediatric weight in the table the fast dwell is shortened, to at most 0.8 of it. */
  lemma FastReductionShortens(weight: real)
    requires IsPediatric(weight) && AgeGroupOf(weight).Some?
    ensures 0.5 < FastReduction(weight) <= 0.8
  {
  }

  /** A pediatric weight below the table gets the adult dose factor, so its fast dwell is
      lengthened 2.5 times rather than shortened. */
  lemma FastReductionBelowTableLengthens()
    ensures IsPediatric(0.4) && FastReduction(0.4) == 2.5
  {
  }

  /** Fast dwell before rounding: the fast reference dwell times the BMI multiplier; for a
      pediatric patient whose weight is known, also times the reduction and capped at half the
      scan-time ceiling. */
  function FastBedTime(fastRefS: real, multBmi: real, isPediatric: bool, weight: Option<real>): (t: real)
    ensures isPediatric && weight.Some? ==> t <= PediatricScanTimeLimit(weight.value) * 0.5
    ensures isPediatric && weight.Some? ==> t <= fastRefS * multBmi * FastReduction(weight.value)
    ensures isPediatric && weight.Some? ==>
      t == fastRefS * multBmi * FastReduction(weight.value) || t == PediatricScanTimeLimit(weight.value) * 0.5
    ensures !(isPediatric && weight.Some?) ==> t == fastRefS * multBmi
  {
    var t := fastRefS * multBmi;
    if isPediatric && weight.Some? then
      Min(t * FastReduction(weight.value), PediatricScanTimeLimit(weight.value) * 0.5)
    else t
  }

  /** Fast protocol: dwell from the fast reference rather than a target SNR; SNR and COV are
      predictions only and no convergence flag is reported. */
  function SolveFast(m: Transcendentals, aEffMbq: real, k: real, gain: real, multBmi: real,
                     fastRefS: real, rangeMm: real, tracer: string := "FDG", isPediatric: bool := false,
                     weight: Option<real> := None): (s: Solution)
    requires m.Valid()
    ensures ReportsConsistently(m, s, aEffMbq, k, gain, rangeMm, tracer)
    ensures s.velocity == BedVelocity(FastBedTime(fastRefS, multBmi, isPediatric, weight))
    ensures isPediatric && weight.Some? ==> BedVelocity(PediatricScanTimeLimit(weight.value) * 0.5) <= s.velocity
  {
    var t := FastBedTime(fastRefS, multBmi, isPediatric, weight);
    assert isPediatric && weight.Some? ==> BedVelocity(PediatricScanTimeLimit(weight.value) * 0.5) <= BedVelocity(t) by {
      if isPediatric && weight.Some? {
        BedVelocityAntitone(t, PediatricScanTimeLimit(weight.value) * 0.5);
      }
    }
    SolutionForBedTime(m, t, aEffMbq, k, gain, rangeMm, tracer)
  }

  /** A 20 kg (toddler) patient: the fast dwell is the reference shortened by 0.7 and capped at
      60 s, and the reported dwell, re-derived from the rounded velocity, stays within 60 s. */
  lemma FastToddlerWithinHalfCeiling(m: Transcendentals, aEffMbq: real, k: real, gain: real,
                                     multBmi: real, fastRefS: real, rangeMm: real, tracer: string)
    requires m.Valid()
    ensures FastBedTime(fastRefS, multBmi, true, Some(20.0)) == Min(fastRefS * multBmi * 0.7, 60.0)
    ensures SolveFast(m, aEffMbq, k, gain, multBmi, fastRefS, rangeMm, tracer, true, Some(20.0)).dwell <= 60.0
  {
    assert AgeGroupOf(20.0) == Some(Toddler) by {
      assert InWeightRange(Toddler, 20.0);
    }
    var base := fastRefS * multBmi;
    assert FastReduction(20.0) == 0.7;
    assert PediatricScanTimeLimit(20.0) * 0.5 == 60.0;
    calc {
      FastBedTime(fastRefS, multBmi, true, Some(20.0));
    ==
      Min(base * FastReduction(20.0), PediatricScanTimeLimit(20.0) * 0.5);
    ==
      Min(base * 0.7, 60.0);
    }
    assert BedVelocity(60.0) == 4.4 by {
      assert (AxialFovMm / 60.0 * 10.0).Floor == 43;
    }
    var s := SolveFast(m, aEffMbq, k, gain, multBmi, fastRefS, rangeMm, tracer, true, Some(20.0));
    assert s.velocity >= 4.4;
    assert s.dwell * 4.4 <= s.dwell * s.velocity;
  }

  /** Rounding the velocity down can push the reported dwell past half the ceiling: a 30 kg
      (child) patient with a 120 s fast reference gets a 90 s dwell, a 2.9 mm/s bed and a
      reported dwell of 263 / 2.9 > 90 s. */
  lemma FastChildCanExceedHalfCeiling(m: Transcendentals, aEffMbq: real, k: real, gain: real,
                                      rangeMm: real, tracer: string)
    requires m.Valid()
    ensures FastBedTime(120.0, 1.0, true, Some(30.0)) == 90.0
    ensures SolveFast(m, aEffMbq, k, gain, 1.0, 120.0, rangeMm, tracer, true, Some(30.0)).dwell > 90.0
  {
    assert AgeGroupOf(30.0) == Some(Child) by {
      assert InWeightRange(Child, 30.0);
    }
    assert FastReduction(30.0) == 0.8;
    assert PediatricScanTimeLimit(30.0) == 180.0;
    assert BedVelocity(90.0) == 2.9 by {
      assert (AxialFovMm / 90.0 * 10.0).Floor == 29;
    }
  }
}

=== FILE: real_math.dfy ===
/**
 Real arithmetic the physics model is written in: min/max/clamp, the one-decimal
 rounding of bed velocities, and the transcendental functions.

 The exponential, the logarithm, the square root and the fractional power are not
 definable in Dafny's real arithmetic. They are carried as function values in a
 `Transcendentals` record, and `Valid()` states the laws the proofs rely on; every
 member that evaluates one of them takes the record and requires it to be valid.
 */
module RealMath {

  function Min(a: real, b: real): real {
    if a <= b then a else b
  }

  function Max(a: real, b: real): real {
    if a >= b then a else b
  }

  function Abs(x: real): real {
    if x < 0.0 then -x else x
  }

  /** `max(lo, min(x, hi))`: the bounds are applied upper first, lower last. */
  function Clamp(lo: real, hi: real, x: real): real {
    Max(lo, Min(x, hi))
  }

  /** True when `x` is an exact multiple of 0.1. */
  predicate OnTenthGrid(x: real) {
    (x * 10.0).Floor as real == x * 10.0
  }

  /** The integer nearest to `y`, a tie going to the even one. */
  function RoundHalfEven(y: real): (q: int)
    ensures y - 0.5 <= q as real <= y + 0.5
  {
    var n := y.Floor;
    var f := y - n as real;
    if f < 0.5 then n else if f > 0.5 then n + 1 else if n % 2 == 0 then n else n + 1
  }

  /** A tenth of an integer is on the grid. */
  lemma TenthOfIntOnGrid(q: int)
    ensures OnTenthGrid(q as real / 10.0)
  {
    assert q as real / 10.0 * 10.0 == q as real;
  }

  /** Python's `round(x, 1)` over exact reals: the nearest multiple of 0.1, a tie going to the
      even multiple. */
  function RoundTenth(x: real): (r: real)
    ensures OnTenthGrid(r)
    ensures x - 0.05 <= r <= x + 0.05
    ensures OnTenthGrid(x) ==> r == x
  {
    var q := RoundHalfEven(x * 10.0);
    TenthOfIntOnGrid(q);
    q as real / 10.0
  }

  /** Rounding never reverses the order of two values. */
  lemma RoundHalfEvenMonotone(x: real, y: real)
    requires x <= y
    ensures RoundHalfEven(x) <= RoundHalfEven(y)
  {
    var n, m := x.Floor, y.Floor;
    assert n <= m;
    if n == m {
      assert x - n as real <= y - m as real;
    } else {
      assert RoundHalfEven(x) <= n + 1 <= m <= RoundHalfEven(y);
    }
  }

  lemma RoundTenthMonotone(x: real, y: real)
    requires x <= y
    ensures RoundTenth(x) <= RoundTenth(y)
  {
    RoundHalfEvenMonotone(x * 10.0, y * 10.0);
  }

  /** Rounding a value already clamped to a range whose ends are on the grid stays in it. */
  lemma RoundTenthStaysInRange(lo: real, hi: real, x: real)
    requires OnTenthGrid(lo) && OnTenthGrid(hi) && lo <= x <= hi
    ensures lo <= RoundTenth(x) <= hi
  {
    RoundTenthMonotone(lo, x);
    RoundTenthMonotone(x, hi);
  }

  /** Multiplying by a non-negative factor keeps order. */
  lemma ScaleMonotone(a: real, x: real, y: real)
    requires a >= 0.0 && x <= y
    ensures a * x <= a * y
  {
  }

  /** Scaling a non-negative value by a factor in (0, 1] keeps it between zero and itself. */
  lemma ScaleBetween(a: real, f: real)
    requires a >= 0.0 && 0.0 < f <= 1.0
    ensures 0.0 <= a * f <= a
  {
    ScaleMonotone(a, 0.0, f);
    ScaleMonotone(a, f, 1.0);
  }

  /** Dividing by a positive divisor keeps order. */
  lemma DivideMonotone(x: real, y: real, d: real)
    requires d > 0.0 && x <= y
    ensures x / d <= y / d
  {
    assert (x / d) * d == x && (y / d) * d == y;
  }

  datatype Transcendentals = Transcendentals(
    exp: real -> real,
    ln: real -> real,
    sqrt: real -> real,
    pow: (real, real) -> real)
  {
    /** The laws of exp, ln, sqrt and the power with a non-negative exponent that the model uses. */
    ghost predicate Valid() {
      && exp(0.0) == 1.0
      && (forall x :: exp(x) > 0.0)
      && (forall x, y :: x <= y ==> exp(x) <= exp(y))
      && ln(1.0) == 0.0
      && (forall x, y :: 0.0 < x < y ==> ln(x) < ln(y))
      && (forall x :: 0.0 <= x ==> 0.0 <= sqrt(x) && sqrt(x) * sqrt(x) == x)
      && (forall e :: pow(1.0, e) == 1.0)
      && (forall b1, b2, e :: 0.0 < b1 <= b2 && 0.0 <= e ==> pow(b1, e) <= pow(b2, e))
    }
  }

  /** A decay factor e^(-x) with x >= 0 lies in (0, 1]. */
  lemma DecayFactorAtMostOne(m: Transcendentals, x: real)
    requires m.Valid() && x >= 0.0
    ensures 0.0 < m.exp(-x) <= 1.0
  {
    assert m.exp(-x) <= m.exp(0.0);
  }

  lemma LnOfTwoPositive(m: Transcendentals)
    requires m.Valid()
    ensures m.ln(2.0) > 0.0
  {
    assert m.ln(1.0) < m.ln(2.0);
  }

  lemma SqrtOfPositive(m: Transcendentals, x: real)
    requires m.Valid() && x > 0.0
    ensures m.sqrt(x) > 0.0
  {
    assert m.sqrt(x) * m.sqrt(x) == x;
  }

  /** A power of a base at least one, with a non-negative exponent, is at least one. */
  lemma PowAtLeastOne(m: Transcendentals, b: real, e: real)
    requires m.Valid() && b >= 1.0 && e >= 0.0
    ensures m.pow(b, e) >= 1.0
  {
    assert m.pow(1.0, e) <= m.pow(b, e);
  }
}

=== FILE: snr_model.dfy ===
/**
 The count-statistics model of the PET physics engine: decay-corrected activity, noise-equivalent
 counts (NEC), the SNR predicted from NEC, and the site calibration constant k.
 */
module SnrModel {
  import opened RealMath
  import opened Device

  /** Floor applied to NEC before the square root, and to a calibrated k. */
  const Epsilon: real := 0.000000001

  /** Minutes from injection to scan start; a scan start before the injection counts as zero. */
  function ElapsedMinutes(injTimeS: int, scanStartS: int): (r: real)
    ensures r >= 0.0
    ensures scanStartS >= injTimeS ==> r * 60.0 == (scanStartS - injTimeS) as real
    ensures scanStartS <= injTimeS ==> r == 0.0
  {
    Max((scanStartS - injTimeS) as real / 60.0, 0.0)
  }

  /** Injected activity less the residual left in the syringe, never negative. */
  function PreDecayActivity(injectedMbq: real, residualMbq: real): (r: real)
    ensures r >= 0.0 && r >= injectedMbq - residualMbq
    ensures r == 0.0 || r == injectedMbq - residualMbq
  {
    Max(injectedMbq - residualMbq, 0.0)
  }

  /** Decay constant ln 2 / half-life, per minute. */
  function DecayConstant(m: Transcendentals, tracer: string): (r: real)
    requires m.Valid()
    ensures r > 0.0
  {
    LnOfTwoPositive(m);
    m.ln(2.0) / HalfLifeMin(TracerKey(tracer))
  }

  /** A later scan start never counts fewer elapsed minutes. */
  lemma ElapsedMinutesMonotone(injTimeS: int, start1: int, start2: int)
    requires start1 <= start2
    ensures ElapsedMinutes(injTimeS, start1) <= ElapsedMinutes(injTimeS, start2)
  {
    DivideMonotone((start1 - injTimeS) as real, (start2 - injTimeS) as real, 60.0);
  }

  /** An activity `a0` decayed by the factor e^(-x). */
  function Decayed(m: Transcendentals, a0: real, x: real): (r: real)
    requires m.Valid() && a0 >= 0.0 && x >= 0.0
    ensures 0.0 <= r <= a0
    ensures x == 0.0 ==> r == a0
  {
    DecayFactorAtMostOne(m, x);
    ScaleBetween(a0, m.exp(-x));
    assert x == 0.0 ==> m.exp(-x) == 1.0;
    a0 * m.exp(-x)
  }

  /** A longer decay never leaves more activity. */
  lemma DecayedAntitone(m: Transcendentals, a0: real, x1: real, x2: real)
    requires m.Valid() && a0 >= 0.0 && 0.0 <= x1 <= x2
    ensures Decayed(m, a0, x2) <= Decayed(m, a0, x1)
  {
    assert m.exp(-x2) <= m.exp(-x1) by {
      assert -x2 <= -x1;
    }
    calc {
      Decayed(m, a0, x2);
    ==
      a0 * m.exp(-x2);
    <=  { ScaleMonotone(a0, m.exp(-x2), m.exp(-x1)); }
      a0 * m.exp(-x1);
    ==
      Decayed(m, a0, x1);
    }
  }

  /** The pre-decay activity decayed over the elapsed minutes: never negative, never more than
      the pre-decay activity, and equal to it when the scan does not start after the injection. */
  function EffectiveActivity(m: Transcendentals, injectedMbq: real, injTimeS: int, scanStartS: int,
                             tracer: string := "FDG", residualMbq: real := 0.0): (r: real)
    requires m.Valid()
    ensures 0.0 <= r <= PreDecayActivity(injectedMbq, residualMbq)
    ensures scanStartS <= injTimeS ==> r == PreDecayActivity(injectedMbq, residualMbq)
  {
    var lambda := DecayConstant(m, tracer);
    var t := ElapsedMinutes(injTimeS, scanStartS);
    ScaleMonotone(lambda, 0.0, t);
    Decayed(m, PreDecayActivity(injectedMbq, residualMbq), lambda * t)
  }

  /** A later scan start never sees more activity. */
  lemma EffectiveActivityDecreasesWithTime(m: Transcendentals, injectedMbq: real, injTimeS: int,
                                           start1: int, start2: int, tracer: string, residualMbq: real)
    requires m.Valid() && start1 <= start2
    ensures EffectiveActivity(m, injectedMbq, injTimeS, start2, tracer, residualMbq)
         <= EffectiveActivity(m, injectedMbq, injTimeS, start1, tracer, residualMbq)
  {
    var lambda := DecayConstant(m, tracer);
    var t1, t2 := ElapsedMinutes(injTimeS, start1), ElapsedMinutes(injTimeS, start2);
    ElapsedMinutesMonotone(injTimeS, start1, start2);
    ScaleMonotone(lambda, 0.0, t1);
    ScaleMonotone(lambda, t1, t2);
    DecayedAntitone(m, PreDecayActivity(injectedMbq, residualMbq), lambda * t1, lambda * t2);
  }

  /** Noise-equivalent counts of an acquisition: activity times dwell times the sensitivity in
      cps/MBq, which is the same for every tracer label; never negative for a non-negative
      activity and dwell, and growing with the dwell. */
  function Nec(activityMbq: real, dwellS: real, tracer: string := "FDG"): (r: real)
    ensures r == activityMbq * dwellS * 9100.0
    ensures activityMbq >= 0.0 && dwellS >= 0.0 ==> r >= 0.0
  {
    assert activityMbq >= 0.0 && dwellS >= 0.0 ==> activityMbq * dwellS >= 0.0 by {
      if activityMbq >= 0.0 && dwellS >= 0.0 {
        ScaleMonotone(activityMbq, 0.0, dwellS);
      }
    }
    activityMbq * dwellS * SystemSensitivity(tracer)
  }

  /** SNR from NEC: sqrt of NEC floored at epsilon, times the reconstruction gain. Its square is
      the floored NEC times the squared gain, and its sign is the gain's. */
  function SnrFromNec(m: Transcendentals, nec: real, gain: real := 1.0): (r: real)
    requires m.Valid()
    ensures r * r == Max(nec, Epsilon) * gain * gain
    ensures r > 0.0 <==> gain > 0.0
    ensures r == 0.0 <==> gain == 0.0
  {
    var s := m.sqrt(Max(nec, Epsilon));
    SqrtOfPositive(m, Max(nec, Epsilon));
    assert (s * gain) * (s * gain) == (s * s) * (gain * gain);
    s * gain
  }

  /** The SNR the solvers predict for an acquisition: k times the SNR of its NEC. */
  function PredictedSnr(m: Transcendentals, k: real, activityMbq: real, dwellS: real, gain: real, tracer: string): (r: real)
    requires m.Valid()
    ensures r * r == k * k * Max(Nec(activityMbq, dwellS, tracer), Epsilon) * gain * gain
    ensures k > 0.0 && gain > 0.0 ==> r > 0.0
  {
    var snr := SnrFromNec(m, Nec(activityMbq, dwellS, tracer), gain);
    assert (k * snr) * (k * snr) == (k * k) * (snr * snr);
    k * snr
  }

  /** Dividing a target by a non-zero scale and flooring the quotient at epsilon: the floored
      quotient scales back to the target unless the floor applied, and with a positive scale the
      floor applies exactly when the target is below epsilon times the scale. */
  lemma FlooredQuotient(c: real, target: real)
    requires c != 0.0
    ensures Max(target / c, Epsilon) >= Epsilon
    ensures Max(target / c, Epsilon) == Epsilon || Max(target / c, Epsilon) * c == target
    ensures c > 0.0 && target >= Epsilon * c ==> Max(target / c, Epsilon) * c == target
    ensures c > 0.0 && target < Epsilon * c ==> Max(target / c, Epsilon) == Epsilon
  {
    var q := target / c;
    assert q * c == target;
    if c > 0.0 {
      if Epsilon <= q {
        ScaleMonotone(c, Epsilon, q);
      } else {
        ScaleMonotone(c, q, Epsilon);
        assert q * c != Epsilon * c;
      }
    }
  }

  /** The site calibration constant: the factor by which the count model must be scaled to give
      the site's reference SNR for the reference acquisition, floored at epsilon. With a positive
      gain it reproduces the reference SNR exactly when that SNR is at least what the floor k
      itself predicts, and it is the floor otherwise. */
  function CalibrateK(m: Transcendentals, tRefS: real, aRefMbq: real, gain: real, snrRefSite: real, tracer: string := "FDG"): (k: real)
    requires m.Valid() && gain != 0.0
    ensures k >= Epsilon
    ensures k == Epsilon || PredictedSnr(m, k, aRefMbq, tRefS, gain, tracer) == snrRefSite
    ensures gain > 0.0 && snrRefSite >= PredictedSnr(m, Epsilon, aRefMbq, tRefS, gain, tracer) ==>
      PredictedSnr(m, k, aRefMbq, tRefS, gain, tracer) == snrRefSite
    ensures gain > 0.0 && snrRefSite < PredictedSnr(m, Epsilon, aRefMbq, tRefS, gain, tracer) ==> k == Epsilon
    ensures gain > 0.0 && snrRefSite <= 0.0 ==> k == Epsilon
  {
    var c := SnrFromNec(m, Nec(aRefMbq, tRefS, tracer), gain);
    FlooredQuotient(c, snrRefSite);
    assert gain > 0.0 && snrRefSite <= 0.0 ==> snrRefSite < Epsilon * c;
    Max(snrRefSite / c, Epsilon)
  }
}

=== FILE: wrappers.dfy ===
/** Optional values: a lookup that may find nothing, a quantity that may be undefined. */
module Wrappers {

  datatype Option<+T> = None | Some(value: T) {

    /** Returns the value held in Some, or the given default for None. */
    function GetOr(default: T): T {
      match this
      case Some(v) => v
      case None => default
    }
  }
}
